=== FILE: README.md ===
# Index bookkeeping of the Schwarzschild eccentric waveform call

This project is a Dafny model of the discrete logic in `few/waveform.py` of
FastEMRIWaveforms. That logic sits around the physics of
`SchwarzschildEccentricWaveformBase.__call__`:

- **The batch scheduler.** It cuts the trajectory sample axis `0 .. len(t) - 1`
  into consecutive chunks of `batch_size`. There is a single chunk when
  `batch_size == -1` or when the class's `allow_batching is False`. The scheduler
  runs one batch per chunk and joins the per-chunk waveform segments in chunk
  order.
- **Mode selection in each batch.** A `mode_selection` can take three forms:
  - the string `"all"`;
  - a non-empty list of `(l, m, n)` triples, resolved through `lmn_indices`;
  - any other value, which goes to the external default mode filter.

  The first two forms build the angular-factor row list
  `ylmkeep = keep_modes ++ temp2`. In `temp2`, a kept row `k` stays `k` when
  `k < num_m0` and becomes `k + num_m_1_up` otherwise.
- **Call-scoped outputs.** `plunge_time` is the last trajectory time.
  `num_modes_kept`, `ls`, `ms` and `ns` are those of the last batch only.
- **The class flags and `sanity_check_gpu`.** The fast model has GPU capability
  and does not batch. The slow model is CPU-only and batches. The base class's
  capability property raises `NotImplementedError`, and its `allow_batching`
  returns the `NotImplementedError` class, which is not `False`. This is how
  the stacked `classmethod` and `property` decorators behave on Python 3.9 to
  3.12.

The trajectory, amplitude, angular-factor (Ylm), mode-filter and summation
modules are not part of this model. The model takes them as functions of the
chunk being processed: see `Waveform.Collaborators`. Every array index is
modelled by numpy's fancy-indexing rules, on either backend (see
`Waveform.CatalogueYlms` under "## Left out" for cupy):

- negative indices wrap around;
- an out-of-range index raises `IndexError`;
- slices clamp to the array length.

Files:

| file | contents |
|---|---|
| `outcome.dfy` | `Result` and the Python exceptions raised |
| `indexing.dfy` | numpy gather, slice prefix and `arange` |
| `batching.dfy` | the split loop, `np.split` chunks, the schedule, the batch loop and its lemmas |
| `modes.dfy` | the mode catalogue, the symmetry expansion and the selection dispatch |
| `waveform.dfy` | the class flags, construction, `sanity_check_gpu` and the call |

## Model

| member | source | states |
|---|---|---|
| `Indexing.Wrap` | few/waveform.py:306 | A numpy index inside `-len .. len - 1` names a position below `len`. A non-negative index names itself. A negative index counts back from the end. |
| `Indexing.Gather` | few/waveform.py:240-242 | Fancy indexing succeeds exactly when every index is in range, and otherwise raises IndexError. On success, entry `j` of the result is the element at index `idx[j]` (after wrap-around) and the result has one entry per index. |
| `Indexing.Prefix` | few/waveform.py:296-298 | `arr[:w]` is a prefix of `arr` of length `min(w, len(arr))`. |
| `Indexing.Arange` | few/waveform.py:300 | `arange(n)` has length `n`, and entry `i` is `i`. |
| `Batching.SplitLoop` | few/waveform.py:249-255 | Every split point the loop appends lies strictly between the counter it starts from and `n`. The exact list is characterised by `Batching.SplitPointsAreMultiples` and `Batching.SplitPointsComplete`. |
| `Batching.Counter` | few/waveform.py:250-252 | After `k` passes through the loop body, the counter `i` is `k * batch_size`. |
| `Batching.SplitLoopProgression` | few/waveform.py:249-255 | The split points the loop appends lie strictly between the counter and `n`. They start at counter + `batch_size`, step by `batch_size`, and one more step from the last of them reaches `n`. |
| `Batching.NonPositiveBatchSizeNeverExits` | few/waveform.py:246-255 | With batching on and `batch_size <= 0` (other than -1), the counter stays below `n` after every pass and never reaches the `break`, so the loop never returns normally: each pass appends a split point, and the list grows until memory is exhausted. `Terminates` is therefore exactly the condition under which the split loop ends. |
| `Batching.SplitPointsAreMultiples` | few/waveform.py:249-255 | Split point `j` is `(j + 1) * batch_size` and lies below `n`. The split points strictly increase. |
| `Batching.SplitPointsComplete` | few/waveform.py:249-255 | Every positive multiple of `batch_size` below `n` is a split point, at its position in the list. |
| `Batching.SplitPointsAreCounterValues` | few/waveform.py:249-255 | With `batch_size >= 1`, split point `j` is the loop counter `i` after `j + 1` passes of the loop body. |
| `Batching.Chunks` | few/waveform.py:257 | `np.split(arange(n), splits)` gives one more chunk than there are split points. The chunks are consecutive, start at 0 and end at `n`. Chunk `j` ends where chunk `j + 1` starts, at split point `j`. |
| `Batching.ChunksShape` | few/waveform.py:257 | The pieces between consecutive boundaries are well formed and consecutive, run from 0 to `n`, and are cut exactly at the split points. |
| `Batching.Schedule` | few/waveform.py:246-257 | There is always at least one chunk. The chunks are consecutive, start at sample 0 and end at `len(t)`. |
| `Batching.ScheduleSingleBatch` | few/waveform.py:246-247 | With `batch_size == -1`, or with `allow_batching is False`, the schedule is the single chunk `[0, len(t))`. |
| `Batching.ScheduleBatchSizes` | few/waveform.py:248-257 | With batching on and `batch_size >= 1`, chunk `j` starts at `j * batch_size`. Every chunk but the last has length `batch_size`. The last chunk has length `1 .. batch_size` when `len(t) > 0`. |
| `Batching.ScheduleCovers` | few/waveform.py:246-257 | Joining the chunks' sample indices in order gives `0 .. len(t) - 1`, each exactly once and in order. |
| `Batching.Flatten` | few/waveform.py:356-360 | Appending segment after segment keeps the first segment at the start of the waveform. |
| `Batching.FlattenCons` | few/waveform.py:356-360 | Appending segment after segment gives the first segment followed by the join of the remaining ones, the same as one concatenation of all segments. |
| `Batching.ConcatSamples` | few/waveform.py:356-360 | Joining the samples of consecutive chunks gives the samples of their union. |
| `Batching.Assemble` | few/waveform.py:265-360 | A successful batch loop leaves behind the bookkeeping of the last chunk, which succeeded. A failing first chunk makes the loop fail with that chunk's error. |
| `Batching.AssembleSamples` | few/waveform.py:356-360 | If each chunk's segment is the samples of one signal over that chunk, the batch loop over consecutive chunks yields that signal over their whole span. |
| `Batching.AssembleJoinsSegments` | few/waveform.py:356-360 | The batch loop succeeds exactly when every chunk's batch succeeds. The waveform is then the per-chunk segments joined in ascending chunk order, and the bookkeeping left behind is the last chunk's. |
| `Batching.AssembleFirstError` | few/waveform.py:265-360 | A failing batch loop raises the error of the first failing chunk, and every chunk before that one succeeded. |
| `Batching.BatchInvariance` | few/waveform.py:246-360 | If each chunk's segment is the samples of one signal over that chunk, the chunked waveform equals the single-batch waveform. |
| `Modes.Temp2Entry` | few/waveform.py:301-303 | The arithmetic blend `k*(k < num_m0) + (k + num_m_1_up)*(k >= num_m0)` equals the symmetry partner of `k`: `k` itself below `num_m0`, `k + num_m_1_up` from there on. |
| `Modes.SymmetryPartnerInjective` | few/waveform.py:324-328 | Distinct kept rows have distinct partner rows when `num_m_1_up >= 0`. |
| `Modes.ExpandYlmIndices` | few/waveform.py:305 | `ylmkeep` has length 2K. Its first half is `keep_modes`. Entry `K + j` is the partner row of `keep_modes[j]`. |
| `Modes.LookupAll` | few/waveform.py:316-318 | The lookup succeeds exactly when every triple is in `lmn_indices`. Entry `j` is then the row of triple `j`, so the caller's order is kept. Otherwise it raises KeyError naming the first missing triple. |
| `Modes.SelectAllModes` | few/waveform.py:295-307 | The `"all"` branch can fail only with IndexError. On success it keeps one amplitude column per input column and hands on 2W angular factors. Its contents are stated by `Modes.SelectAllSucceeds`, `Modes.SelectAllColumns`, `Modes.SelectAllKeptYlms` and `Modes.SelectAllPartnerYlms`. |
| `Modes.SelectListedModes` | few/waveform.py:312-330 | The explicit-list branch fails only with KeyError or IndexError, and succeeds only when every listed triple is in `lmn_indices`. Its contents are stated by `Modes.SelectExplicitRows` and `Modes.SelectExplicitColumns`. |
| `Modes.SelectRows` | few/waveform.py:320-330 | Selecting kept rows fails only with IndexError. On success `ls`, `ms`, `ns` and the amplitude columns have one entry per kept row, and there are two angular factors per kept row. |
| `Modes.SelectModes` | few/waveform.py:294-340 | A string other than `"all"` raises ValueError. An empty list raises ValueError. Any other value goes to the default filter, and the dispatch itself raises nothing on that path. Only a string or a list can make the dispatch fail. |
| `Modes.AllYlmRows` | few/waveform.py:300-305 | For `"all"`, `ylmkeep` holds row `k` at position `k` and the partner row of `k` at position `W + k`. |
| `Modes.ExpandedRowsInBounds` | few/waveform.py:305-306 | Gathering at the expanded rows of non-negative rows is in range exactly when every partner row is. |
| `Modes.ArangeRowsInBounds` | few/waveform.py:300-306 | The gather at the expanded rows of `arange(W)` is in range exactly when the partner row of every `k < W` is. |
| `Modes.SelectAllSucceeds` | few/waveform.py:295-307 | `"all"` succeeds exactly when the partner row of every column `0 .. W - 1` exists among the angular factors. Otherwise it raises IndexError. |
| `Modes.SelectAllColumns` | few/waveform.py:295-307 | After `"all"`, the amplitude matrix is passed through unchanged. `ls`, `ms`, `ns` are prefixes of the catalogue arrays, each of length `min(W, len)` for its array, and there are 2W angular factors. |
| `Modes.ExpandedGatherAt` | few/waveform.py:328-329 | After a successful gather at `ylmkeep`, entry `j` is the factor of kept row `j` and entry `K + j` is the factor of its partner row. |
| `Modes.ArangeGather` | few/waveform.py:300-306 | After a successful gather at the expanded rows of `arange(W)`, entry `k` is factor `k` and entry `W + k` is the factor of the partner row of `k`. |
| `Modes.SelectAllKeptYlms` | few/waveform.py:300-306 | After `"all"`, there are at least W angular factors, and the first W selected factors are factors `0 .. W - 1`. |
| `Modes.SelectAllPartnerYlms` | few/waveform.py:300-306 | After `"all"`, selected factor `W + k` is the factor of the partner row of `k`. |
| `Modes.SelectAllIsWholeCatalogue` | few/waveform.py:295-307 | For a valid catalogue whose W equals its row count, `"all"` keeps every mode: `ls`, `ms`, `ns` are `l_arr`, `m_arr`, `n_arr`. |
| `Modes.SelectExplicitSucceeds` | few/waveform.py:312-330 | For a valid catalogue and listed triples that are all known, the selection succeeds exactly when every kept row has an amplitude column and every partner row has an angular factor. Otherwise it raises IndexError. |
| `Modes.ExplicitYlmRows` | few/waveform.py:324-328 | For an explicit list, `ylmkeep` holds the row of triple `j` at position `j` and that row's partner at position `K + j`. |
| `Modes.SelectRowsSucceeds` | few/waveform.py:320-330 | For catalogue rows that exist, selecting the kept rows succeeds exactly when every kept row has an amplitude column and every partner row has an angular factor. Otherwise it raises IndexError. |
| `Modes.SelectRowsContents` | few/waveform.py:320-330 | After a successful selection of kept rows, entry `j` of `ls`, `ms`, `ns` and of the amplitude columns comes from row `keep[j]`. The first K angular factors come from the kept rows and the next K from their partner rows. |
| `Modes.SelectExplicitRows` | few/waveform.py:316-322 | A successful explicit selection had every triple in the catalogue. It has one row per listed triple, and row `j` of `ls`, `ms`, `ns` is triple `j` of the list, in the caller's order. |
| `Modes.SelectExplicitColumns` | few/waveform.py:324-330 | In a successful explicit selection, the `j`-th amplitude column and first angular factor come from the catalogue row of triple `j`. The `j`-th second-half angular factor comes from that row's partner. |
| `Modes.LookupRows` | few/waveform.py:316-318 | When every triple is known, the lookup yields the rows `lmn_indices[triple]` in order. |
| `Modes.SelectExplicitUnknownMode` | few/waveform.py:316-318 | A list whose `j`-th triple is the first one missing from `lmn_indices` raises KeyError for that triple, whatever the amplitudes. |
| `Waveform.SanityCheckGpu` | few/waveform.py:364-368 | The check fails exactly when reading the capability raises, or when the capability is `False` and `use_gpu` is `True`, both compared by identity. A failure of the capability read is passed on unchanged. |
| `Waveform.SelectBackend` | few/waveform.py:131-135 | cupy is chosen exactly when `use_gpu` is truthy and cupy could be imported. |
| `Waveform.Construct` | few/waveform.py:127-137 | Construction fails exactly when the GPU check fails, with that check's error. Otherwise the instance keeps its class, catalogue and `normalize_amps`, and runs on cupy exactly when `use_gpu` is truthy and cupy is available. |
| `Waveform.FastFluxFlags` | few/waveform.py:448-454 | The fast model does not batch and builds for every `use_gpu`. |
| `Waveform.SlowFluxFlags` | few/waveform.py:499-505 | The slow model batches, and fails to build (GPU unavailable) exactly when `use_gpu` is `True`. |
| `Waveform.BaseClassFlags` | few/waveform.py:150-157 | The base class counts as batching, and never builds because its capability property raises. |
| `Waveform.TruthyGpuRequestPassesCheck` | few/waveform.py:364-368 | A truthy `use_gpu` that is not the boolean `True` passes the check on the CPU-only slow model, which then selects cupy. |
| `Waveform.CatalogueYlms` | few/waveform.py:240-242 | The `inverse_lm` gather succeeds exactly when every `inverse_lm` entry is a valid index into the generated factors, and otherwise raises IndexError. On success there is one factor per `inverse_lm` entry. |
| `Waveform.ChunkAmplitudes` | few/waveform.py:275-292 | The amplitude columns a batch hands to mode selection: the generator's output for the chunk, or the normaliser's output for it when `normalize_amps` is set. It has no contract of its own (see "## Left out"). The lemmas about the call take it as given. |
| `Waveform.Call` | few/waveform.py:229-255 | The call is defined on every input that does not diverge in the split loop. An empty trajectory raises IndexError at `t[-1]`. A successful call had a non-empty trajectory and a successful `inverse_lm` gather, and its `plunge_time` is the last trajectory time. |
| `Waveform.CallEarlyErrors` | few/waveform.py:231-242 | An empty trajectory, or an out-of-range `inverse_lm` gather, raises IndexError before the split loop, whatever the batch size. |
| `Waveform.CallDivergesInSplitLoop` | few/waveform.py:231-255 | Every input the call is not defined on has a non-empty trajectory and a successful `inverse_lm` gather, takes the batched path with `batch_size <= 0`, and keeps the loop counter and its next value below `len(t)` after every pass, so the split loop never ends. |
| `Waveform.CallAssemblesBatches` | few/waveform.py:231-362 | The call succeeds exactly when every chunk's batch does. The waveform is then the batch segments joined in chunk order. `plunge_time` is `t[-1]`. `num_modes_kept`, `ls`, `ms` and `ns` are those of the last chunk's selection. |
| `Waveform.CallUniformError` | few/waveform.py:265-362 | When every batch fails with the same error, the call fails with that error. |
| `Waveform.CallRejectsInvalidSelection` | few/waveform.py:294-314 | A string other than `"all"` fails the call with ValueError("If mode selection is a string, must be `all`."). An empty list fails it with ValueError("If mode selection is a list, cannot be empty."). |
| `Waveform.CallRejectsUnknownMode` | few/waveform.py:316-318 | An explicit list whose first unknown triple is the `j`-th fails the call with KeyError for that triple. |
| `Waveform.CallExplicitKeepsListedModes` | few/waveform.py:312-342 | For a valid catalogue, a successful call with an explicit list has `num_modes_kept` equal to the list length. Entry `j` of `ls`, `ms`, `ns` is the `j`-th listed triple, so every batch keeps the same modes in the caller's order. |
| `Waveform.CallDefaultSucceeds` | few/waveform.py:332-342 | With the default filter, the core itself raises nothing after the `inverse_lm` gather, so the call succeeds. `num_modes_kept`, `ms` and `ns` are what the filter returned for the last chunk. |
| `Waveform.UnbatchedClassIgnoresBatchSize` | few/waveform.py:246-247 | On a class whose `allow_batching is False`, every batch size terminates and gives the same result as `batch_size = -1`. |
| `Waveform.CallBatchInvariance` | few/waveform.py:246-360 | If every chunk's selection succeeds and its summation is the samples of one signal over that chunk, the waveform is that signal over the whole trajectory for any admitted batch size. It equals the waveform of `batch_size = -1`. |

## Left out

- Amplitude normalisation (few/waveform.py:279-292) is floating-point `abs`, square root and division. It is an uninterpreted function of the chunk and its amplitudes, applied exactly when `normalize_amps` is truthy.
- This model does not say which symmetry convention is right.
  - The normalisation's power sum appends conjugates of the `m0mask` columns.
  - The symmetry expansion treats the rows at or above `num_m0` as the doubled set.
  - `m0mask`, `num_m0`, `num_m_1_up`, `l_arr`, `m_arr`, `n_arr`, `lmn_indices`, `unique_l`, `unique_m` and `inverse_lm` come from the parent class `SchwarzschildEccentric`. That class is not part of this model, so they are fields of `Modes.ModeTable`.
- The trajectory integrator, the amplitude generators, `GetYlms`, `ModeSelector` and the summation kernels are not part of this model. They are the fields of `Waveform.Collaborators`. The call is given the trajectory times directly, and the other per-sample trajectory arrays reach the model only through the chunk handed to those functions.
- `sanity_check_viewing_angles`, `sanity_check_init`, `sanity_check_traj` and `SchwarzschildEccentric.__init__` are inherited from the parent class and are not part of this model.
- Only the choice between numpy and cupy is modelled (`Waveform.SelectBackend`). The array libraries themselves and complex arithmetic are not.
- The `tqdm` progress bar and the `print` of the chunk count (few/waveform.py:259-263) are output only.
- The `__main__` benchmark block (few/waveform.py:546-751) and the citation strings (few/waveform.py:159-161) are not modelled.
- Modes.LookupAll: the `int32` cast of each looked-up row (few/waveform.py:318) is not modelled. Catalogue rows are far below 2^31.
- Waveform.Call: the physical arguments (`M`, `mu`, `p0`, `e0`, `theta`, `phi`, `dt`, `T`) only reach the external modules, so they are folded into `Waveform.Collaborators`. `show_progress` is output only.
- Waveform.CatalogueYlms: every gather follows numpy's rules on both backends, so an out-of-range index raises IndexError even on a cupy instance. cupy's integer-array indexing wraps out-of-range indices modulo the length instead of raising. So for a GPU instance, the IndexError clauses of `Waveform.CatalogueYlms`, `Waveform.CallEarlyErrors`, `Modes.SelectAllSucceeds`, `Modes.SelectRowsSucceeds` and `Modes.SelectExplicitSucceeds` do not describe what few/waveform.py:240-242 and few/waveform.py:294-340 do. The call does not read `Instance.backend`.
- Waveform.Call: the precondition `Waveform.CallReturns` excludes exactly the inputs on which the source reaches the split loop and never returns normally: the split list grows until memory is exhausted (MemoryError, or the process is killed). Those are a non-empty trajectory with a successful `inverse_lm` gather, on a batching class, with a `batch_size` of 0 or below other than -1. An empty trajectory or a failing gather raises before the loop whatever the batch size, and the model returns that error. `Waveform.CallDivergesInSplitLoop` states the non-termination instead.
- Waveform.CallDefaultSucceeds: exceptions raised inside the external modules (the amplitude generator at few/waveform.py:275, `ModeSelector` at few/waveform.py:340, the summation at few/waveform.py:344) are not modelled. `Waveform.Collaborators` holds them as total functions, so the lemma only says that the core itself raises nothing on the default path.
- Modes.SelectModes: for the same reason, the default filter is a total function and its own exceptions are not modelled.
- Waveform.BaseClassFlags: the model assumes Python 3.9 to 3.12, where stacking `classmethod` over `property` (few/waveform.py:149-157) forwards to the property. On earlier and later versions `self.gpu_capability` is a bound method, `sanity_check_gpu` passes, and the base class would build. The interpreter version is not modelled.
- Waveform.ChunkAmplitudes carries no contract of its own. The generator and normaliser it combines are uninterpreted, so there is nothing to state beyond which one is applied.
- Waveform.Call: the instance attributes the source overwrites (`plunge_time`, `ls`, `ms`, `ns`, `num_modes_kept`) are returned in `Output` on success only. On a failing call the source leaves partial updates behind, and the model does not record them.

## Notes on the code and its documentation

- The docstring says a `batch_size` below 0 means no batching (few/waveform.py:203-205). The code tests only `batch_size == -1` (few/waveform.py:246). Any other non-positive size on a batching class never leaves the split loop once the loop is reached, that is, on a non-empty trajectory whose `inverse_lm` gather succeeds. The call then never returns normally; the split list grows until memory is exhausted. The model follows the code.
- Passing `batch_size` to a class that does not batch is not an error: the code silently uses one chunk (`Waveform.UnbatchedClassIgnoresBatchSize`).
- Rows below `num_m0` appear twice in `ylmkeep`: once in the first half, and again as their own partner in the second half (`Modes.ExpandYlmIndices`).
- Only a `list` selects modes explicitly. A tuple of triples, or `None`, goes to the default filter (`Modes.SelectModes`).
- `sanity_check_gpu` compares by identity. A truthy `use_gpu` such as `1` passes it on the CPU-only model, and construction then picks cupy when it is installed (`Waveform.TruthyGpuRequestPassesCheck`).
- The base class's `allow_batching` returns the `NotImplementedError` class instead of raising it. That value is not `False`, so the base class counts as batching (`Waveform.BaseClassFlags`, assuming Python 3.9 to 3.12).

=== FILE: batching.dfy ===
/** The batch scheduler of the waveform call: how the trajectory sample axis
    0 .. n - 1 is cut into chunks, and how the per-chunk waveform segments are
    joined back into one waveform. */
module Batching {
  import opened Outcome

  /** The half-open range [lo, hi) of trajectory sample indices handled by one batch. */
  datatype Range = Range(lo: nat, hi: nat) {
    predicate Valid() {
      lo <= hi
    }
  }

  /** The chunked path is taken unless `batch_size == -1` or the class's
      `allow_batching is False`. */
  predicate Batched(batchSize: int, batchingDisallowed: bool) {
    batchSize != -1 && !batchingDisallowed
  }

  /** The split-point loop terminates exactly when the single-batch path is
      taken, the batch size is positive, or there are no samples at all. */
  predicate Terminates(n: nat, batchSize: int, batchingDisallowed: bool) {
    !Batched(batchSize, batchingDisallowed) || batchSize >= 1 || n == 0
  }

  /** The split points the loop `while i < n: i += b; if i >= n: break;
      split_inds.append(i)` appends when its counter starts at `i`. */
  function SplitLoop(i: int, n: nat, b: int): (s: seq<int>)
    requires b >= 1 || n <= i
    ensures forall j :: 0 <= j < |s| ==> i < s[j] < n
    decreases n - i
  {
    if i < n then
      var next := i + b;
      if next >= n then [] else [next] + SplitLoop(next, n, b)
    else []
  }

  /** The split points step by `b` from the counter, stay strictly between the
      counter and `n`, and the step after the last one reaches `n`. */
  lemma {:induction false} SplitLoopProgression(i: int, n: nat, b: int)
    requires b >= 1 || n <= i
    ensures var s := SplitLoop(i, n, b);
      && (forall j :: 0 <= j < |s| ==> i < s[j] < n)
      && (|s| > 0 ==> s[0] == i + b)
      && (forall j :: 0 <= j < |s| - 1 ==> s[j + 1] == s[j] + b)
      && (i < n ==> (if |s| == 0 then i else s[|s| - 1]) + b >= n)
    decreases n - i
  {
    if i < n && i + b < n {
      var next := i + b;
      SplitLoopProgression(next, n, b);
      var rest := SplitLoop(next, n, b);
      var s := SplitLoop(i, n, b);
      assert s == [next] + rest;
      forall j | 0 <= j < |s| - 1
        ensures s[j + 1] == s[j] + b
      {
        if j > 0 {
          assert s[j] == rest[j - 1] && s[j + 1] == rest[j];
        }
      }
    }
  }

  /** The loop counter after `k` passes through the split loop's body. */
  function Counter(k: nat, b: int): (c: int)
    ensures c == k * b
  {
    if k == 0 then 0 else Counter(k - 1, b) + b
  }

  /** With a batch size of zero or below (other than -1) on a class that allows
      batching, the counter never reaches `n`: every pass keeps the loop guard
      true and skips the `break`, so the loop runs forever. */
  lemma {:induction false} NonPositiveBatchSizeNeverExits(n: nat, b: int, k: nat)
    requires n > 0 && b <= 0
    ensures Counter(k, b) < n
    ensures Counter(k, b) + b < n
  {
    if k > 0 {
      NonPositiveBatchSizeNeverExits(n, b, k - 1);
    }
  }

  /** The split points are b, 2b, 3b, ... in increasing order, all below `n`. */
  lemma SplitPointsAreMultiples(n: nat, b: int)
    requires b >= 1
    ensures var s := SplitLoop(0, n, b);
      && (forall j :: 0 <= j < |s| ==> s[j] == (j + 1) * b && s[j] < n)
      && (forall j, k :: 0 <= j < k < |s| ==> s[j] < s[k])
  {
    var s := SplitLoop(0, n, b);
    SplitLoopProgression(0, n, b);
    forall j | 0 <= j < |s|
      ensures s[j] == (j + 1) * b
    {
      ProgressionTerm(s, b, j);
    }
    forall j, k | 0 <= j < k < |s|
      ensures s[j] < s[k]
    {
      ProgressionIncreasing(s, b, j, k);
    }
  }

  /** Split point `j` is the loop counter after `j + 1` passes. */
  lemma SplitPointsAreCounterValues(n: nat, b: int, j: nat)
    requires b >= 1 && j < |SplitLoop(0, n, b)|
    ensures SplitLoop(0, n, b)[j] == Counter(j + 1, b)
  {
    SplitPointsAreMultiples(n, b);
  }

  lemma {:induction false} ProgressionIncreasing(s: seq<int>, b: int, j: nat, k: nat)
    requires j < k < |s| && b >= 1
    requires forall i :: 0 <= i < |s| - 1 ==> s[i + 1] == s[i] + b
    ensures s[j] < s[k]
    decreases k - j
  {
    if j + 1 < k {
      ProgressionIncreasing(s, b, j + 1, k);
    }
  }

  /** No positive multiple of `b` below `n` is missing from the split points. */
  lemma SplitPointsComplete(n: nat, b: int, m: int)
    requires b >= 1 && 1 <= m && m * b < n
    ensures var s := SplitLoop(0, n, b);
      m <= |s| && s[m - 1] == m * b
  {
    var s := SplitLoop(0, n, b);
    SplitLoopProgression(0, n, b);
    SplitPointsAreMultiples(n, b);
    if m > |s| {
      var k := |s|;
      var last := if k == 0 then 0 else s[k - 1];
      assert last == k * b;
      assert last + b >= n;
      assert (k + 1) * b == k * b + b;
      MultiplyMonotone(k + 1, m, b);
      assert false;
    }
  }

  /** Term `j` of an arithmetic progression that starts at `b` with step `b`. */
  lemma {:induction false} ProgressionTerm(s: seq<int>, b: int, j: nat)
    requires j < |s|
    requires s[0] == b
    requires forall i :: 0 <= i < |s| - 1 ==> s[i + 1] == s[i] + b
    ensures s[j] == (j + 1) * b
  {
    if j > 0 {
      ProgressionTerm(s, b, j - 1);
      assert s[j] == j * b + b;
    }
  }

  lemma MultiplyMonotone(x: int, y: int, b: int)
    requires x <= y && b >= 1
    ensures x * b <= y * b
  {
    assert y * b - x * b == (y - x) * b;
  }

  /** The runs of consecutive ranges: each well formed, each starting where
      the previous one ends. */
  predicate Consecutive(cs: seq<Range>) {
    && (forall j :: 0 <= j < |cs| ==> cs[j].Valid())
    && (forall j :: 0 <= j < |cs| - 1 ==> cs[j].hi == cs[j + 1].lo)
  }

  /** Boundary `j` of `np.split(arange(n), splits)`: 0, then the split points, then `n`. */
  function Boundary(n: nat, splits: seq<int>, j: nat): nat
    requires forall i :: 0 <= i < |splits| ==> 0 < splits[i] < n
    requires j <= |splits| + 1
  {
    if j == 0 then 0 else if j <= |splits| then splits[j - 1] else n
  }

  /** The piece of `np.split(np.arange(n), splits)` between boundaries j and j + 1. */
  function Piece(n: nat, splits: seq<int>, j: nat): Range
    requires forall i :: 0 <= i < |splits| ==> 0 < splits[i] < n
    requires j <= |splits|
  {
    Range(Boundary(n, splits, j), Boundary(n, splits, j + 1))
  }

  /** `np.split(np.arange(n), splits)` for increasing split points strictly
      inside (0, n): the pieces between consecutive boundaries. */
  function Chunks(n: nat, splits: seq<int>): (cs: seq<Range>)
    requires forall i :: 0 <= i < |splits| ==> 0 < splits[i] < n
    requires forall i :: 0 <= i < |splits| - 1 ==> splits[i] < splits[i + 1]
    ensures |cs| == |splits| + 1
    ensures Consecutive(cs) && cs[0].lo == 0 && cs[|cs| - 1].hi == n
    ensures forall j :: 0 <= j < |splits| ==> cs[j].hi == splits[j] && cs[j + 1].lo == splits[j]
  {
    var cs := seq(|splits| + 1, j requires 0 <= j <= |splits| => Piece(n, splits, j));
    ChunksShape(n, splits, cs);
    cs
  }

  /** The shape of the pieces: well formed, consecutive, from 0 to n, cut at
      the split points. */
  lemma ChunksShape(n: nat, splits: seq<int>, cs: seq<Range>)
    requires forall i :: 0 <= i < |splits| ==> 0 < splits[i] < n
    requires forall i :: 0 <= i < |splits| - 1 ==> splits[i] < splits[i + 1]
    requires |cs| == |splits| + 1
    requires forall j :: 0 <= j < |cs| ==> cs[j] == Piece(n, splits, j)
    ensures Consecutive(cs) && cs[0].lo == 0 && cs[|cs| - 1].hi == n
    ensures forall j :: 0 <= j < |splits| ==> cs[j].hi == splits[j] && cs[j + 1].lo == splits[j]
  {
    forall j | 0 <= j < |cs|
      ensures cs[j].Valid()
    {
      BoundaryMonotone(n, splits, j);
    }
    forall j | 0 <= j < |cs| - 1
      ensures cs[j].hi == cs[j + 1].lo
    {
      assert cs[j] == Piece(n, splits, j) && cs[j + 1] == Piece(n, splits, j + 1);
    }
    assert cs[|cs| - 1] == Piece(n, splits, |splits|);
    forall j | 0 <= j < |splits|
      ensures cs[j].hi == splits[j] && cs[j + 1].lo == splits[j]
    {
      assert cs[j] == Piece(n, splits, j) && cs[j + 1] == Piece(n, splits, j + 1);
    }
  }

  lemma BoundaryMonotone(n: nat, splits: seq<int>, j: nat)
    requires forall i :: 0 <= i < |splits| ==> 0 < splits[i] < n
    requires forall i :: 0 <= i < |splits| - 1 ==> splits[i] < splits[i + 1]
    requires j <= |splits|
    ensures Boundary(n, splits, j) <= Boundary(n, splits, j + 1)
  {
    if 0 < j < |splits| {
      assert splits[j - 1] < splits[j];
    }
  }

  /** `inds_split_all`: one range [0, n) on the single-batch path, otherwise the
      chunks cut at the split loop's points. */
  function Schedule(n: nat, batchSize: int, batchingDisallowed: bool): (cs: seq<Range>)
    requires Terminates(n, batchSize, batchingDisallowed)
    ensures |cs| >= 1 && Consecutive(cs)
    ensures cs[0].lo == 0 && cs[|cs| - 1].hi == n
  {
    if !Batched(batchSize, batchingDisallowed) then [Range(0, n)]
    else
      SplitLoopProgression(0, n, batchSize);
      Chunks(n, SplitLoop(0, n, batchSize))
  }

  /** On the single-batch path there is exactly one chunk, the whole range. */
  lemma ScheduleSingleBatch(n: nat, batchSize: int, batchingDisallowed: bool)
    requires !Batched(batchSize, batchingDisallowed)
    ensures Schedule(n, batchSize, batchingDisallowed) == [Range(0, n)]
  {
  }

  /** On the chunked path, chunk `j` starts at j * b, every chunk but the last
      holds exactly `b` samples, and the last holds between 1 and `b`. */
  lemma ScheduleBatchSizes(n: nat, b: int, batchingDisallowed: bool)
    requires Batched(b, batchingDisallowed) && b >= 1 && n > 0
    ensures var cs := Schedule(n, b, batchingDisallowed);
      && (forall j :: 0 <= j < |cs| ==> cs[j].lo == j * b)
      && (forall j :: 0 <= j < |cs| - 1 ==> cs[j].hi - cs[j].lo == b)
      && 1 <= cs[|cs| - 1].hi - cs[|cs| - 1].lo <= b
  {
    var s := SplitLoop(0, n, b);
    SplitLoopProgression(0, n, b);
    SplitPointsAreMultiples(n, b);
    var cs := Schedule(n, b, batchingDisallowed);
    assert cs == Chunks(n, s);
    forall j | 0 <= j < |cs|
      ensures cs[j].lo == j * b
    {
      if j > 0 {
        assert cs[j].lo == s[j - 1];
      }
    }
    forall j | 0 <= j < |cs| - 1
      ensures cs[j].hi - cs[j].lo == b
    {
      assert cs[j].hi == s[j] == (j + 1) * b;
    }
  }

  /** The samples g(lo), ..., g(hi - 1) of a range, in order. */
  function Samples<S>(g: nat -> S, r: Range): (xs: seq<S>)
    requires r.Valid()
    ensures |xs| == r.hi - r.lo
    ensures forall i :: 0 <= i < |xs| ==> xs[i] == g(r.lo + i)
  {
    seq(r.hi - r.lo, i requires 0 <= i < r.hi - r.lo => g(r.lo + i))
  }

  /** The per-chunk sample runs of a sequence of ranges. */
  function SampleRuns<S>(cs: seq<Range>, g: nat -> S): (runs: seq<seq<S>>)
    requires forall j :: 0 <= j < |cs| ==> cs[j].Valid()
    ensures |runs| == |cs|
  {
    seq(|cs|, j requires 0 <= j < |cs| => Samples(g, cs[j]))
  }

  /** Concatenation of segments in order (`xp.concatenate` applied batch after batch). */
  function Flatten<S>(ss: seq<seq<S>>): (r: seq<S>)
    ensures |ss| > 0 ==> ss[0] <= r
  {
    if |ss| == 0 then [] else Flatten(ss[..|ss| - 1]) + ss[|ss| - 1]
  }

  /** Appending batch after batch gives the same waveform as one
      concatenation of all segments: the first segment, then the rest. */
  lemma {:induction false} FlattenCons<S>(ss: seq<seq<S>>)
    requires |ss| > 0
    ensures Flatten(ss) == ss[0] + Flatten(ss[1..])
  {
    if |ss| > 1 {
      var init := ss[..|ss| - 1];
      FlattenCons(init);
      assert init[1..] == ss[1..][..|ss| - 2];
    }
  }

  lemma {:induction false} ConsecutiveSpan(cs: seq<Range>)
    requires |cs| >= 1 && Consecutive(cs)
    ensures cs[0].lo <= cs[|cs| - 1].hi
  {
    if |cs| > 1 {
      ConsecutiveSpan(cs[..|cs| - 1]);
    }
  }

  lemma SamplesSplit<S>(g: nat -> S, lo: nat, mid: nat, hi: nat)
    requires lo <= mid <= hi
    ensures Samples(g, Range(lo, mid)) + Samples(g, Range(mid, hi)) == Samples(g, Range(lo, hi))
  {
  }

  /** Joining the sample runs of consecutive ranges gives the run of their span. */
  lemma {:induction false} ConcatSamples<S>(cs: seq<Range>, g: nat -> S)
    requires |cs| >= 1 && Consecutive(cs)
    ensures cs[0].lo <= cs[|cs| - 1].hi
    ensures Flatten(SampleRuns(cs, g)) == Samples(g, Range(cs[0].lo, cs[|cs| - 1].hi))
  {
    ConsecutiveSpan(cs);
    var runs := SampleRuns(cs, g);
    if |cs| == 1 {
      assert Flatten(runs) == Flatten(runs[..0]) + runs[0];
    } else {
      var init := cs[..|cs| - 1];
      assert Consecutive(init) by {
        assert forall j :: 0 <= j < |init| ==> init[j] == cs[j];
      }
      ConcatSamples(init, g);
      assert runs[..|cs| - 1] == SampleRuns(init, g);
      assert init[|init| - 1] == cs[|cs| - 2] && cs[|cs| - 2].hi == cs[|cs| - 1].lo;
      assert Flatten(runs) == Flatten(runs[..|cs| - 1]) + runs[|cs| - 1];
      SamplesSplit(g, cs[0].lo, cs[|cs| - 2].hi, cs[|cs| - 1].hi);
    }
  }

  function Identity(i: nat): nat {
    i
  }

  /** The chunks cover 0 .. n - 1 exactly once and in increasing order: their
      index ranges joined are the sequence 0, 1, ..., n - 1. */
  lemma ScheduleCovers(n: nat, batchSize: int, batchingDisallowed: bool)
    requires Terminates(n, batchSize, batchingDisallowed)
    ensures var covered := Flatten(SampleRuns(Schedule(n, batchSize, batchingDisallowed), Identity));
      && |covered| == n
      && forall i :: 0 <= i < n ==> covered[i] == i
  {
    ConcatSamples(Schedule(n, batchSize, batchingDisallowed), Identity);
  }

  /** What one batch yields: its waveform segment and the batch's mode bookkeeping. */
  datatype Batch<S, L> = Batch(segment: seq<S>, info: L)

  /** The joined waveform and the bookkeeping of the last batch processed. */
  datatype Assembled<S, L> = Assembled(waveform: seq<S>, last: L)

  /** The batch loop: run `stage` on each chunk in order, stopping at the first
      error; the first segment starts the waveform, every later segment is
      appended to it, and the bookkeeping left behind is the last batch's. */
  function Assemble<S, L>(cs: seq<Range>, stage: Range -> Result<Batch<S, L>>): (r: Result<Assembled<S, L>>)
    requires |cs| >= 1
    ensures r.Ok? ==> stage(cs[|cs| - 1]).Ok? && r.value.last == stage(cs[|cs| - 1]).value.info
    ensures stage(cs[0]).Err? ==> r == Err(stage(cs[0]).error)
  {
    if |cs| == 1 then
      var b :- stage(cs[0]);
      Ok(Assembled(b.segment, b.info))
    else
      var acc :- Assemble(cs[..|cs| - 1], stage);
      var b :- stage(cs[|cs| - 1]);
      Ok(Assembled(acc.waveform + b.segment, b.info))
  }

  /** The segment of a successful batch (nothing for a failed one). */
  function SegmentOf<S, L>(r: Result<Batch<S, L>>): seq<S> {
    if r.Ok? then r.value.segment else []
  }

  /** The per-chunk segments, in chunk order. */
  function Segments<S, L>(cs: seq<Range>, stage: Range -> Result<Batch<S, L>>): (ss: seq<seq<S>>)
    ensures |ss| == |cs|
  {
    seq(|cs|, j requires 0 <= j < |cs| => SegmentOf(stage(cs[j])))
  }

  /** The batch loop succeeds exactly when every chunk's stage succeeds; then the
      waveform is the chunk segments joined in chunk order and the bookkeeping
      is the last chunk's. */
  lemma {:induction false} AssembleJoinsSegments<S, L>(cs: seq<Range>, stage: Range -> Result<Batch<S, L>>)
    requires |cs| >= 1
    ensures Assemble(cs, stage).Ok? <==> forall j :: 0 <= j < |cs| ==> stage(cs[j]).Ok?
    ensures Assemble(cs, stage).Ok? ==>
      Assemble(cs, stage).value == Assembled(Flatten(Segments(cs, stage)), stage(cs[|cs| - 1]).value.info)
  {
    if |cs| == 1 {
      assert Flatten(Segments(cs, stage)) == Flatten(Segments(cs, stage)[..0]) + Segments(cs, stage)[0];
    } else {
      var init := cs[..|cs| - 1];
      AssembleJoinsSegments(init, stage);
      assert Segments(cs, stage)[..|cs| - 1] == Segments(init, stage);
      if Assemble(cs, stage).Ok? {
        assert forall j :: 0 <= j < |init| ==> init[j] == cs[j];
      }
      if forall j :: 0 <= j < |cs| ==> stage(cs[j]).Ok? {
        assert forall j :: 0 <= j < |init| ==> stage(init[j]).Ok?;
      }
    }
  }

  /** A failing batch loop reports the error of the first failing chunk; every
      chunk before it succeeded. */
  lemma {:induction false} AssembleFirstError<S, L>(cs: seq<Range>, stage: Range -> Result<Batch<S, L>>)
    requires |cs| >= 1
    requires Assemble(cs, stage).Err?
    ensures exists j :: 0 <= j < |cs| && stage(cs[j]) == Err(Assemble(cs, stage).error)
                        && forall i :: 0 <= i < j ==> stage(cs[i]).Ok?
  {
    if |cs| == 1 {
      assert stage(cs[0]) == Err(Assemble(cs, stage).error);
    } else {
      var init := cs[..|cs| - 1];
      if Assemble(init, stage).Err? {
        AssembleFirstError(init, stage);
        var j :| 0 <= j < |init| && stage(init[j]) == Err(Assemble(init, stage).error)
                 && forall i :: 0 <= i < j ==> stage(init[i]).Ok?;
        assert cs[j] == init[j];
        assert forall i :: 0 <= i < j ==> cs[i] == init[i];
      } else {
        AssembleJoinsSegments(init, stage);
        var j := |cs| - 1;
        assert forall i :: 0 <= i < j ==> cs[i] == init[i];
        assert stage(cs[j]) == Err(Assemble(cs, stage).error);
      }
    }
  }

  /** When each chunk's segment is the samples of `g` over that chunk, the
      batch loop over consecutive chunks yields the samples of `g` over their
      whole span. */
  lemma AssembleSamples<S, L>(cs: seq<Range>, stage: Range -> Result<Batch<S, L>>, g: nat -> S)
    requires |cs| >= 1 && Consecutive(cs)
    requires forall r: Range :: r.Valid() ==> stage(r).Ok? && stage(r).value.segment == Samples(g, r)
    ensures cs[0].lo <= cs[|cs| - 1].hi
    ensures Assemble(cs, stage).Ok?
    ensures Assemble(cs, stage).value.waveform == Samples(g, Range(cs[0].lo, cs[|cs| - 1].hi))
  {
    AssembleJoinsSegments(cs, stage);
    assert Segments(cs, stage) == SampleRuns(cs, g);
    ConcatSamples(cs, g);
  }

  /** Batch invariance: when each chunk's segment is the samples g(lo .. hi - 1)
      of that chunk, the chunked waveform equals the single-batch one. */
  lemma BatchInvariance<S, L>(n: nat, batchSize: int, batchingDisallowed: bool,
                              stage: Range -> Result<Batch<S, L>>, g: nat -> S)
    requires Terminates(n, batchSize, batchingDisallowed)
    requires forall r: Range :: r.Valid() ==> stage(r).Ok? && stage(r).value.segment == Samples(g, r)
    ensures Assemble(Schedule(n, batchSize, batchingDisallowed), stage).Ok?
    ensures Assemble([Range(0, n)], stage).Ok?
    ensures Assemble(Schedule(n, batchSize, batchingDisallowed), stage).value.waveform
         == Assemble([Range(0, n)], stage).value.waveform
         == Samples(g, Range(0, n))
  {
    AssembleSamples(Schedule(n, batchSize, batchingDisallowed), stage, g);
    AssembleSamples([Range(0, n)], stage, g);
  }
}

=== FILE: indexing.dfy ===
/** The numpy indexing primitives the pipeline relies on, on sequences. */
module Indexing {
  import opened Outcome

  /** numpy accepts an integer index into a length-`len` axis when `-len <= i < len`. */
  predicate InBounds(len: nat, i: int) {
    -(len as int) <= i < len
  }

  /** The position an accepted index denotes: negative indices count from the end. */
  function Wrap(len: nat, i: int): (k: nat)
    requires InBounds(len, i)
    ensures k < len
    ensures 0 <= i ==> k == i
    ensures i < 0 ==> k + (-i) == len
  {
    if i < 0 then len + i else i
  }

  /** Fancy indexing `s[idx]`: the elements at `idx`, in the order of `idx`, or
      IndexError when some index is out of range. */
  function Gather<T>(s: seq<T>, idx: seq<int>): (r: Result<seq<T>>)
    ensures r.Ok? <==> forall j :: 0 <= j < |idx| ==> InBounds(|s|, idx[j])
    ensures r.Ok? ==> |r.value| == |idx|
    ensures r.Ok? ==> forall j :: 0 <= j < |idx| ==> r.value[j] == s[Wrap(|s|, idx[j])]
    ensures r.Err? ==> r.error == IndexError
  {
    if |idx| == 0 then Ok([])
    else if !InBounds(|s|, idx[0]) then Err(IndexError)
    else
      var rest :- Gather(s, idx[1..]);
      Ok([s[Wrap(|s|, idx[0])]] + rest)
  }

  /** The slice `s[:w]` with a non-negative stop: numpy clamps the stop to the length. */
  function Prefix<T>(s: seq<T>, w: nat): (r: seq<T>)
    ensures r <= s
    ensures |r| == if w <= |s| then w else |s|
  {
    if w <= |s| then s[..w] else s
  }

  /** `arange(n)`: the indices 0, 1, ..., n - 1. */
  function Arange(n: nat): (r: seq<int>)
    ensures |r| == n
    ensures forall i :: 0 <= i < n ==> r[i] == i
  {
    seq(n, i => i)
  }
}

=== FILE: modes.dfy ===
/** Mode selection for one batch: the three policies ("all", an explicit list of
    (l, m, n) triples, the external default filter) and the m-symmetry
    expansion of the kept rows into angular-factor rows. */
module Modes {
  import opened Outcome
  import opened Indexing

  /** A harmonic mode (l, m, n). */
  type Mode = (int, int, int)

  /** The mode catalogue the waveform class inherits: the parallel arrays
      `l_arr`, `m_arr`, `n_arr`, the lookup `lmn_indices`, the symmetry counts
      `num_m0` and `num_m_1_up`, and `inverse_lm` for the Ylm gather. */
  datatype ModeTable = ModeTable(
    lArr: seq<int>,
    mArr: seq<int>,
    nArr: seq<int>,
    lmnIndices: map<Mode, int>,
    numM0: int,
    numM1Up: int,
    inverseLm: seq<int>)
  {
    /** The catalogue invariant: parallel arrays, non-negative counts, and every
        triple in the lookup names a row that holds that very triple. */
    predicate Valid() {
      && |lArr| == |mArr| == |nArr|
      && 0 <= numM0 && 0 <= numM1Up
      && forall md :: md in lmnIndices ==> RowHolds(md)
    }

    /** The lookup sends `md` to a row that holds `md`. */
    predicate RowHolds(md: Mode)
      requires md in lmnIndices
    {
      var i := lmnIndices[md];
      0 <= i < |lArr| && i < |mArr| && i < |nArr| && lArr[i] == md.0 && mArr[i] == md.1 && nArr[i] == md.2
    }
  }

  /** numpy's boolean-to-integer promotion in `keep_modes * (keep_modes < num_m0)`. */
  function Indicator(c: bool): int {
    if c then 1 else 0
  }

  /** The angular-factor row that pairs with kept row `k`: an m = 0 row is its
      own pair, an m > 0 row pairs with the row `num_m_1_up` further on. */
  function SymmetryPartner(k: int, numM0: int, numM1Up: int): int {
    if k < numM0 then k else k + numM1Up
  }

  /** One entry of `temp2`, computed as the code does, by the arithmetic blend
      `k * (k < num_m0) + (k + num_m_1_up) * (k >= num_m0)`; it is the
      symmetry partner of `k`. */
  function Temp2Entry(k: int, numM0: int, numM1Up: int): (p: int)
    ensures p == SymmetryPartner(k, numM0, numM1Up)
  {
    k * Indicator(k < numM0) + (k + numM1Up) * Indicator(k >= numM0)
  }

  /** Distinct kept rows have distinct partner rows, so each kept row gets its
      own angular-factor row in the second half. */
  lemma SymmetryPartnerInjective(a: int, b: int, numM0: int, numM1Up: int)
    requires numM1Up >= 0
    requires SymmetryPartner(a, numM0, numM1Up) == SymmetryPartner(b, numM0, numM1Up)
    ensures a == b
  {
  }

  /** `ylmkeep = concatenate([keep_modes, temp2])`: the kept rows, then for each
      kept row the row itself when it is an m = 0 row (below `num_m0`) and the
      row `num_m_1_up` further on otherwise. */
  function ExpandYlmIndices(keep: seq<int>, numM0: int, numM1Up: int): (r: seq<int>)
    ensures |r| == 2 * |keep|
    ensures r[..|keep|] == keep
    ensures forall j :: 0 <= j < |keep| ==> r[|keep| + j] == SymmetryPartner(keep[j], numM0, numM1Up)
  {
    keep + seq(|keep|, j requires 0 <= j < |keep| => Temp2Entry(keep[j], numM0, numM1Up))
  }

  /** The caller's `mode_selection`: a string, a list of triples, or any other value. */
  datatype Selection = Named(name: string) | Explicit(modes: seq<Mode>) | Default

  /** The selection handed to the summation: the kept amplitude columns, the
      expanded angular factors, and the kept l, m, n values. */
  datatype Selected<C, Y> = Selected(amps: seq<C>, ylms: seq<Y>, ls: seq<int>, ms: seq<int>, ns: seq<int>)

  /** The external mode filter (`ModeSelector`) applied with tolerance `eps`. */
  type DefaultSelector<!C, !Y> = (seq<C>, seq<Y>, seq<int>, seq<int>, seq<int>, real) -> Selected<C, Y>

  /** `lmn_indices[tuple(lmn)]` for each triple in order, failing with KeyError
      on the first triple the lookup lacks. */
  function LookupAll(table: map<Mode, int>, modes: seq<Mode>): (r: Result<seq<int>>)
    ensures r.Ok? <==> forall j :: 0 <= j < |modes| ==> modes[j] in table
    ensures r.Ok? ==> |r.value| == |modes| && forall j :: 0 <= j < |modes| ==> r.value[j] == table[modes[j]]
    ensures r.Err? ==> exists j :: 0 <= j < |modes| && modes[j] !in table && r.error == KeyError(modes[j])
                                   && forall i :: 0 <= i < j ==> modes[i] in table
  {
    if |modes| == 0 then Ok([])
    else if modes[0] !in table then Err(KeyError(modes[0]))
    else
      var rest :- LookupAll(table, modes[1..]);
      Ok([table[modes[0]]] + rest)
  }

  /** The "all" branch: every amplitude column is kept, l, m, n are the first W
      catalogue entries, and the angular factors are gathered at the expanded
      rows of 0 .. W - 1 (W the column count). */
  function SelectAllModes<C, Y>(t: ModeTable, teuk: seq<C>, ylms: seq<Y>): (r: Result<Selected<C, Y>>)
    ensures r.Err? ==> r.error == IndexError
    ensures r.Ok? ==> |r.value.amps| == |teuk| && |r.value.ylms| == 2 * |teuk|
  {
    var w := |teuk|;
    var ylmsIn :- Gather(ylms, ExpandYlmIndices(Arange(w), t.numM0, t.numM1Up));
    Ok(Selected(teuk, ylmsIn, Prefix(t.lArr, w), Prefix(t.mArr, w), Prefix(t.nArr, w)))
  }

  /** The explicit-list branch once the list is known to be non-empty: look the
      triples up, then select the rows found. */
  function SelectListedModes<C, Y>(t: ModeTable, modes: seq<Mode>, teuk: seq<C>, ylms: seq<Y>): (r: Result<Selected<C, Y>>)
    ensures r.Ok? ==> forall j :: 0 <= j < |modes| ==> modes[j] in t.lmnIndices
    ensures r.Err? ==> r.error == IndexError || r.error.KeyError?
  {
    var keep :- LookupAll(t.lmnIndices, modes);
    SelectRows(t, keep, teuk, ylms)
  }

  /** Selection of the kept rows `keep`: gather l, m, n, the angular factors at
      the expanded rows and the amplitude columns at the kept rows. */
  function SelectRows<C, Y>(t: ModeTable, keep: seq<int>, teuk: seq<C>, ylms: seq<Y>): (r: Result<Selected<C, Y>>)
    ensures r.Err? ==> r.error == IndexError
    ensures r.Ok? ==> && |r.value.ls| == |r.value.ms| == |r.value.ns| == |r.value.amps| == |keep|
                      && |r.value.ylms| == 2 * |keep|
  {
    var ls :- Gather(t.lArr, keep);
    var ms :- Gather(t.mArr, keep);
    var ns :- Gather(t.nArr, keep);
    var ylmsIn :- Gather(ylms, ExpandYlmIndices(keep, t.numM0, t.numM1Up));
    var ampsIn :- Gather(teuk, keep);
    Ok(Selected(ampsIn, ylmsIn, ls, ms, ns))
  }

  /** The mode-selection dispatch of one batch, given the batch's amplitude
      columns `teuk` and the per-row angular factors `ylms`. */
  function SelectModes<C, Y>(t: ModeTable, sel: Selection, teuk: seq<C>, ylms: seq<Y>, eps: real,
                             selector: DefaultSelector<C, Y>): (r: Result<Selected<C, Y>>)
    ensures sel.Named? && sel.name != "all" ==> r.Err? && r.error.ValueError?
    ensures sel.Explicit? && sel.modes == [] ==> r.Err? && r.error.ValueError?
    ensures sel.Default? ==> r == Ok(selector(teuk, ylms, t.lArr, t.mArr, t.nArr, eps))
    ensures r.Err? ==> !sel.Default?
  {
    match sel
    case Named(name) =>
      if name == "all" then SelectAllModes(t, teuk, ylms)
      else Err(ValueError("If mode selection is a string, must be `all`."))
    case Explicit(modes) =>
      if modes == [] then Err(ValueError("If mode selection is a list, cannot be empty."))
      else SelectListedModes(t, modes, teuk, ylms)
    case Default =>
      Ok(selector(teuk, ylms, t.lArr, t.mArr, t.nArr, eps))
  }

  /** The expanded rows of `arange(w)`: row k, then the partner row of k. */
  lemma AllYlmRows(w: nat, numM0: int, numM1Up: int)
    ensures var idx := ExpandYlmIndices(Arange(w), numM0, numM1Up);
      forall k :: 0 <= k < w ==> idx[k] == k && idx[w + k] == SymmetryPartner(k, numM0, numM1Up)
  {
    var idx := ExpandYlmIndices(Arange(w), numM0, numM1Up);
    forall k | 0 <= k < w
      ensures idx[k] == k
    {
      assert idx[..w][k] == Arange(w)[k];
    }
  }

  /** Entry j of the expanded rows is row j, entry |rows| + j its partner row. */
  lemma ExpandedIndexAt(rows: seq<int>, numM0: int, numM1Up: int, j: nat)
    requires j < |rows|
    ensures var idx := ExpandYlmIndices(rows, numM0, numM1Up);
      idx[j] == rows[j] && idx[|rows| + j] == SymmetryPartner(rows[j], numM0, numM1Up)
  {
    var idx := ExpandYlmIndices(rows, numM0, numM1Up);
    assert idx[..|rows|][j] == rows[j];
  }

  /** Gathering at the expanded rows of a row list succeeds exactly when every
      partner row is present (a partner row is never below its row). */
  lemma ExpandedRowsInBounds(rows: seq<int>, numM0: int, numM1Up: int, len: nat)
    requires numM1Up >= 0
    requires forall j :: 0 <= j < |rows| ==> 0 <= rows[j]
    ensures var idx := ExpandYlmIndices(rows, numM0, numM1Up);
      (forall j :: 0 <= j < |idx| ==> InBounds(len, idx[j]))
      <==> (forall j :: 0 <= j < |rows| ==> SymmetryPartner(rows[j], numM0, numM1Up) < len)
  {
    var idx := ExpandYlmIndices(rows, numM0, numM1Up);
    var k := |rows|;
    if forall j :: 0 <= j < k ==> SymmetryPartner(rows[j], numM0, numM1Up) < len {
      forall i | 0 <= i < |idx|
        ensures InBounds(len, idx[i])
      {
        if i < k {
          ExpandedIndexAt(rows, numM0, numM1Up, i);
        } else {
          ExpandedIndexAt(rows, numM0, numM1Up, i - k);
        }
      }
    } else {
      var j :| 0 <= j < k && SymmetryPartner(rows[j], numM0, numM1Up) >= len;
      ExpandedIndexAt(rows, numM0, numM1Up, j);
      assert !InBounds(len, idx[k + j]);
    }
  }

  /** The gather at the expanded rows of `arange(w)` is in range exactly when
      the partner row of every k below w is. */
  lemma ArangeRowsInBounds(w: nat, numM0: int, numM1Up: int, len: nat)
    requires numM1Up >= 0
    ensures var idx := ExpandYlmIndices(Arange(w), numM0, numM1Up);
      (forall j :: 0 <= j < |idx| ==> InBounds(len, idx[j]))
      <==> (forall k :: 0 <= k < w ==> SymmetryPartner(k, numM0, numM1Up) < len)
  {
    var keep := Arange(w);
    ExpandedRowsInBounds(keep, numM0, numM1Up, len);
    if forall k :: 0 <= k < w ==> SymmetryPartner(k, numM0, numM1Up) < len {
      forall j | 0 <= j < |keep|
        ensures SymmetryPartner(keep[j], numM0, numM1Up) < len
      {
        assert keep[j] == j;
      }
    } else {
      var k :| 0 <= k < w && SymmetryPartner(k, numM0, numM1Up) >= len;
      assert keep[k] == k;
    }
  }

  /** The "all" branch fails exactly when its angular-factor gather does. */
  lemma SelectAllOutcome<C, Y>(t: ModeTable, teuk: seq<C>, ylms: seq<Y>, eps: real, selector: DefaultSelector<C, Y>)
    ensures var g := Gather(ylms, ExpandYlmIndices(Arange(|teuk|), t.numM0, t.numM1Up));
      var r := SelectModes(t, Named("all"), teuk, ylms, eps, selector);
      (r.Ok? <==> g.Ok?) && (r.Err? ==> r.error == g.error)
  {
    assert SelectModes(t, Named("all"), teuk, ylms, eps, selector) == SelectAllModes(t, teuk, ylms);
  }

  /** "all" succeeds exactly when the partner row of every column index
      0 .. W - 1 exists in `ylms` (W the column count); otherwise IndexError. */
  lemma SelectAllSucceeds<C, Y>(t: ModeTable, teuk: seq<C>, ylms: seq<Y>, eps: real, selector: DefaultSelector<C, Y>)
    requires t.numM1Up >= 0
    ensures var r := SelectModes(t, Named("all"), teuk, ylms, eps, selector);
      && (r.Ok? <==> forall k :: 0 <= k < |teuk| ==> SymmetryPartner(k, t.numM0, t.numM1Up) < |ylms|)
      && (r.Err? ==> r.error == IndexError)
  {
    SelectAllOutcome(t, teuk, ylms, eps, selector);
    ArangeRowsInBounds(|teuk|, t.numM0, t.numM1Up, |ylms|);
  }

  /** A successful "all" keeps every amplitude column unchanged, and its l, m, n
      are the first W catalogue entries (W the column count, clamped to the
      catalogue length as numpy slicing does). */
  lemma SelectAllColumns<C, Y>(t: ModeTable, teuk: seq<C>, ylms: seq<Y>, eps: real, selector: DefaultSelector<C, Y>)
    requires SelectModes(t, Named("all"), teuk, ylms, eps, selector).Ok?
    ensures var s := SelectModes(t, Named("all"), teuk, ylms, eps, selector).value;
      var w := |teuk|;
      && s.amps == teuk
      && s.ls <= t.lArr && s.ms <= t.mArr && s.ns <= t.nArr
      && |s.ls| == (if w <= |t.lArr| then w else |t.lArr|)
      && |s.ms| == (if w <= |t.mArr| then w else |t.mArr|)
      && |s.ns| == (if w <= |t.nArr| then w else |t.nArr|)
      && |s.ylms| == 2 * w
  {
    assert SelectModes(t, Named("all"), teuk, ylms, eps, selector) == SelectAllModes(t, teuk, ylms);
  }

  /** Gathering the angular factors at the expanded rows of a row list: entry j
      is the factor of row j, entry |rows| + j the factor of its partner row. */
  lemma ExpandedGatherAt<Y>(rows: seq<int>, numM0: int, numM1Up: int, ylms: seq<Y>, j: nat)
    requires numM1Up >= 0
    requires j < |rows| && 0 <= rows[j]
    requires Gather(ylms, ExpandYlmIndices(rows, numM0, numM1Up)).Ok?
    ensures var g := Gather(ylms, ExpandYlmIndices(rows, numM0, numM1Up)).value;
      && |g| == 2 * |rows|
      && rows[j] < |ylms| && g[j] == ylms[rows[j]]
      && 0 <= SymmetryPartner(rows[j], numM0, numM1Up) < |ylms|
      && g[|rows| + j] == ylms[SymmetryPartner(rows[j], numM0, numM1Up)]
  {
    var idx := ExpandYlmIndices(rows, numM0, numM1Up);
    var k := |rows|;
    assert idx[..k][j] == rows[j];
    assert InBounds(|ylms|, idx[j]);
    assert InBounds(|ylms|, idx[k + j]);
  }

  /** The angular factors of a successful "all" are the gather at the expanded rows. */
  lemma SelectAllGathers<C, Y>(t: ModeTable, teuk: seq<C>, ylms: seq<Y>)
    requires SelectAllModes(t, teuk, ylms).Ok?
    ensures var g := Gather(ylms, ExpandYlmIndices(Arange(|teuk|), t.numM0, t.numM1Up));
      g.Ok? && SelectAllModes(t, teuk, ylms).value.ylms == g.value
  {
  }

  /** Entry k of a successful gather at the expanded rows of `arange(w)` is
      factor k, entry w + k the factor of the partner row of k. */
  lemma ArangeGatherAt<Y>(w: nat, numM0: int, numM1Up: int, ylms: seq<Y>, k: nat)
    requires numM1Up >= 0 && k < w
    requires Gather(ylms, ExpandYlmIndices(Arange(w), numM0, numM1Up)).Ok?
    ensures var g := Gather(ylms, ExpandYlmIndices(Arange(w), numM0, numM1Up)).value;
      && k < |ylms| && g[k] == ylms[k]
      && 0 <= SymmetryPartner(k, numM0, numM1Up) < |ylms|
      && g[w + k] == ylms[SymmetryPartner(k, numM0, numM1Up)]
  {
    assert Arange(w)[k] == k;
    ExpandedGatherAt(Arange(w), numM0, numM1Up, ylms, k);
  }

  /** A successful gather at the expanded rows of `arange(w)`: entry k is
      factor k, entry w + k the factor of the partner row of k. */
  lemma ArangeGather<Y>(w: nat, numM0: int, numM1Up: int, ylms: seq<Y>)
    requires numM1Up >= 0
    requires Gather(ylms, ExpandYlmIndices(Arange(w), numM0, numM1Up)).Ok?
    ensures w <= |ylms|
    ensures var g := Gather(ylms, ExpandYlmIndices(Arange(w), numM0, numM1Up)).value;
      forall k :: 0 <= k < w ==>
        && g[k] == ylms[k]
        && 0 <= SymmetryPartner(k, numM0, numM1Up) < |ylms|
        && g[w + k] == ylms[SymmetryPartner(k, numM0, numM1Up)]
  {
    var g := Gather(ylms, ExpandYlmIndices(Arange(w), numM0, numM1Up)).value;
    if w > 0 {
      ArangeGatherAt(w, numM0, numM1Up, ylms, w - 1);
    }
    forall k | 0 <= k < w
      ensures g[k] == ylms[k]
      ensures 0 <= SymmetryPartner(k, numM0, numM1Up) < |ylms|
      ensures g[w + k] == ylms[SymmetryPartner(k, numM0, numM1Up)]
    {
      ArangeGatherAt(w, numM0, numM1Up, ylms, k);
    }
  }

  /** The first half of a successful "all": the angular factors of rows 0 .. W - 1. */
  lemma SelectAllKeptYlms<C, Y>(t: ModeTable, teuk: seq<C>, ylms: seq<Y>)
    requires t.numM1Up >= 0
    requires SelectAllModes(t, teuk, ylms).Ok?
    ensures |teuk| <= |ylms|
    ensures var sy := SelectAllModes(t, teuk, ylms).value.ylms;
      forall k :: 0 <= k < |teuk| ==> sy[k] == ylms[k]
  {
    SelectAllGathers(t, teuk, ylms);
    ArangeGather(|teuk|, t.numM0, t.numM1Up, ylms);
  }

  /** The second half of a successful "all": the angular factors of the
      partner rows. */
  lemma SelectAllPartnerYlms<C, Y>(t: ModeTable, teuk: seq<C>, ylms: seq<Y>)
    requires t.numM1Up >= 0
    requires SelectAllModes(t, teuk, ylms).Ok?
    ensures var sy := SelectAllModes(t, teuk, ylms).value.ylms;
      forall k :: 0 <= k < |teuk| ==>
        0 <= SymmetryPartner(k, t.numM0, t.numM1Up) < |ylms|
        && sy[|teuk| + k] == ylms[SymmetryPartner(k, t.numM0, t.numM1Up)]
  {
    SelectAllGathers(t, teuk, ylms);
    ArangeGather(|teuk|, t.numM0, t.numM1Up, ylms);
  }

  /** "all" over the whole catalogue (W equal to the number of rows) keeps every
      mode: K is the number of rows and l, m, n are the catalogue arrays in
      catalogue order. */
  lemma SelectAllIsWholeCatalogue<C, Y>(t: ModeTable, teuk: seq<C>, ylms: seq<Y>, eps: real,
                                        selector: DefaultSelector<C, Y>)
    requires t.Valid() && |teuk| == |t.lArr|
    requires SelectModes(t, Named("all"), teuk, ylms, eps, selector).Ok?
    ensures var s := SelectModes(t, Named("all"), teuk, ylms, eps, selector).value;
      |s.amps| == |t.lArr| && s.ls == t.lArr && s.ms == t.mArr && s.ns == t.nArr
  {
  }

  /** The catalogue rows of an explicit list whose triples are all in the lookup. */
  function Rows(t: ModeTable, modes: seq<Mode>): (rows: seq<int>)
    requires forall j :: 0 <= j < |modes| ==> modes[j] in t.lmnIndices
    ensures |rows| == |modes|
  {
    seq(|modes|, j requires 0 <= j < |modes| => t.lmnIndices[modes[j]])
  }

  /** Selecting catalogue rows succeeds exactly when every kept row has an
      amplitude column and every partner row an angular factor; otherwise it
      fails with IndexError. */
  lemma SelectRowsSucceeds<C, Y>(t: ModeTable, keep: seq<int>, teuk: seq<C>, ylms: seq<Y>)
    requires t.numM1Up >= 0
    requires forall j :: 0 <= j < |keep| ==> 0 <= keep[j] < |t.lArr| && keep[j] < |t.mArr| && keep[j] < |t.nArr|
    ensures var r := SelectRows(t, keep, teuk, ylms);
      && (r.Ok? <==> forall j :: 0 <= j < |keep| ==>
                       keep[j] < |teuk| && SymmetryPartner(keep[j], t.numM0, t.numM1Up) < |ylms|)
      && (r.Err? ==> r.error == IndexError)
  {
    var gl := Gather(t.lArr, keep);
    var gm := Gather(t.mArr, keep);
    var gn := Gather(t.nArr, keep);
    assert gl.Ok? && gm.Ok? && gn.Ok?;
    var gy := Gather(ylms, ExpandYlmIndices(keep, t.numM0, t.numM1Up));
    var ga := Gather(teuk, keep);
    ExpandedRowsInBounds(keep, t.numM0, t.numM1Up, |ylms|);
    assert SelectRows(t, keep, teuk, ylms) == if gy.Err? then Err(gy.error) else if ga.Err? then Err(ga.error)
                else Ok(Selected(ga.value, gy.value, gl.value, gm.value, gn.value));
  }

  /** An explicit list whose triples are all in the catalogue succeeds exactly
      when every kept row has an amplitude column and every partner row an
      angular factor; otherwise it fails with IndexError. */
  lemma SelectExplicitSucceeds<C, Y>(t: ModeTable, modes: seq<Mode>, teuk: seq<C>, ylms: seq<Y>, eps: real,
                                     selector: DefaultSelector<C, Y>)
    requires t.Valid() && |modes| > 0
    requires forall j :: 0 <= j < |modes| ==> modes[j] in t.lmnIndices
    ensures var r := SelectModes(t, Explicit(modes), teuk, ylms, eps, selector);
      var rows := Rows(t, modes);
      && (r.Ok? <==> forall j :: 0 <= j < |modes| ==>
                       rows[j] < |teuk| && SymmetryPartner(rows[j], t.numM0, t.numM1Up) < |ylms|)
      && (r.Err? ==> r.error == IndexError)
  {
    assert SelectModes(t, Explicit(modes), teuk, ylms, eps, selector) == SelectListedModes(t, modes, teuk, ylms);
    var rows := Rows(t, modes);
    LookupRows(t, modes);
    assert SelectListedModes(t, modes, teuk, ylms) == SelectRows(t, rows, teuk, ylms);
    forall j | 0 <= j < |rows|
      ensures 0 <= rows[j] < |t.lArr| && rows[j] < |t.mArr| && rows[j] < |t.nArr|
    {
      assert t.RowHolds(modes[j]);
    }
    SelectRowsSucceeds(t, rows, teuk, ylms);
  }

  /** The expanded angular-factor rows of an explicit list: row j of the list,
      then the partner row of row j. */
  lemma ExplicitYlmRows(t: ModeTable, modes: seq<Mode>)
    requires forall j :: 0 <= j < |modes| ==> modes[j] in t.lmnIndices
    ensures var rows := Rows(t, modes);
      var idx := ExpandYlmIndices(rows, t.numM0, t.numM1Up);
      forall j :: 0 <= j < |modes| ==>
        idx[j] == rows[j] && idx[|modes| + j] == SymmetryPartner(rows[j], t.numM0, t.numM1Up)
  {
    var rows := Rows(t, modes);
    var idx := ExpandYlmIndices(rows, t.numM0, t.numM1Up);
    forall j | 0 <= j < |modes|
      ensures idx[j] == rows[j]
    {
      assert idx[..|modes|][j] == rows[j];
    }
  }

  /** A successful selection of rows `keep`: entry j of l, m, n and of the
      amplitude columns comes from row keep[j], the first K angular factors
      from the kept rows and the next K from their partner rows. */
  lemma SelectRowsContents<C, Y>(t: ModeTable, keep: seq<int>, teuk: seq<C>, ylms: seq<Y>)
    requires t.numM1Up >= 0
    requires forall j :: 0 <= j < |keep| ==> 0 <= keep[j] < |t.lArr| && keep[j] < |t.mArr| && keep[j] < |t.nArr|
    requires SelectRows(t, keep, teuk, ylms).Ok?
    ensures var s := SelectRows(t, keep, teuk, ylms).value;
      var k := |keep|;
      && |s.ls| == |s.ms| == |s.ns| == |s.amps| == k
      && |s.ylms| == 2 * k
      && forall j :: 0 <= j < k ==>
           && s.ls[j] == t.lArr[keep[j]] && s.ms[j] == t.mArr[keep[j]] && s.ns[j] == t.nArr[keep[j]]
           && keep[j] < |teuk| && s.amps[j] == teuk[keep[j]]
           && keep[j] < |ylms| && s.ylms[j] == ylms[keep[j]]
           && var p := SymmetryPartner(keep[j], t.numM0, t.numM1Up);
              0 <= p < |ylms| && s.ylms[k + j] == ylms[p]
  {
    var k := |keep|;
    var gl := Gather(t.lArr, keep);
    var gm := Gather(t.mArr, keep);
    var gn := Gather(t.nArr, keep);
    var gy := Gather(ylms, ExpandYlmIndices(keep, t.numM0, t.numM1Up));
    var ga := Gather(teuk, keep);
    assert gl.Ok? && gm.Ok? && gn.Ok? && gy.Ok? && ga.Ok?;
    var s := SelectRows(t, keep, teuk, ylms).value;
    assert s == Selected(ga.value, gy.value, gl.value, gm.value, gn.value);
    forall j | 0 <= j < k
      ensures s.ls[j] == t.lArr[keep[j]] && s.ms[j] == t.mArr[keep[j]] && s.ns[j] == t.nArr[keep[j]]
    {
      assert InBounds(|t.lArr|, keep[j]) && InBounds(|t.mArr|, keep[j]) && InBounds(|t.nArr|, keep[j]);
    }
    forall j | 0 <= j < k
      ensures keep[j] < |teuk| && s.amps[j] == teuk[keep[j]]
    {
      assert InBounds(|teuk|, keep[j]);
    }
    forall j | 0 <= j < k
      ensures keep[j] < |ylms| && s.ylms[j] == ylms[keep[j]]
      ensures var p := SymmetryPartner(keep[j], t.numM0, t.numM1Up);
              0 <= p < |ylms| && s.ylms[k + j] == ylms[p]
    {
      ExpandedGatherAt(keep, t.numM0, t.numM1Up, ylms, j);
    }
  }

  /** An explicit list whose triples are all known selects their catalogue rows. */
  lemma ExplicitIsRows<C, Y>(t: ModeTable, modes: seq<Mode>, teuk: seq<C>, ylms: seq<Y>, eps: real,
                             selector: DefaultSelector<C, Y>)
    requires |modes| > 0
    requires forall j :: 0 <= j < |modes| ==> modes[j] in t.lmnIndices
    ensures SelectModes(t, Explicit(modes), teuk, ylms, eps, selector) == SelectRows(t, Rows(t, modes), teuk, ylms)
  {
    LookupRows(t, modes);
  }

  /** A successful explicit selection had every triple in the catalogue. */
  lemma ExplicitOkKnown<C, Y>(t: ModeTable, modes: seq<Mode>, teuk: seq<C>, ylms: seq<Y>, eps: real,
                              selector: DefaultSelector<C, Y>)
    requires |modes| > 0
    requires SelectModes(t, Explicit(modes), teuk, ylms, eps, selector).Ok?
    ensures forall j :: 0 <= j < |modes| ==> modes[j] in t.lmnIndices
  {
    assert LookupAll(t.lmnIndices, modes).Ok?;
  }

  /** In a valid catalogue the rows of known triples exist and hold those triples. */
  lemma RowsInCatalogue(t: ModeTable, modes: seq<Mode>)
    requires t.Valid()
    requires forall j :: 0 <= j < |modes| ==> modes[j] in t.lmnIndices
    ensures var rows := Rows(t, modes);
      forall j :: 0 <= j < |rows| ==>
        && 0 <= rows[j] < |t.lArr| && rows[j] < |t.mArr| && rows[j] < |t.nArr|
        && (t.lArr[rows[j]], t.mArr[rows[j]], t.nArr[rows[j]]) == modes[j]
  {
    var rows := Rows(t, modes);
    forall j | 0 <= j < |rows|
      ensures 0 <= rows[j] < |t.lArr| && rows[j] < |t.mArr| && rows[j] < |t.nArr|
      ensures (t.lArr[rows[j]], t.mArr[rows[j]], t.nArr[rows[j]]) == modes[j]
    {
      assert t.RowHolds(modes[j]);
    }
  }

  /** A successful explicit selection keeps the caller's triples in the caller's
      order: it has one row per listed triple, and row j of l, m, n is the
      j-th triple. */
  lemma SelectExplicitRows<C, Y>(t: ModeTable, modes: seq<Mode>, teuk: seq<C>, ylms: seq<Y>, eps: real,
                                 selector: DefaultSelector<C, Y>)
    requires t.Valid() && |modes| > 0
    requires SelectModes(t, Explicit(modes), teuk, ylms, eps, selector).Ok?
    ensures forall j :: 0 <= j < |modes| ==> modes[j] in t.lmnIndices
    ensures var s := SelectModes(t, Explicit(modes), teuk, ylms, eps, selector).value;
      && |s.ls| == |s.ms| == |s.ns| == |s.amps| == |modes|
      && |s.ylms| == 2 * |modes|
      && forall j :: 0 <= j < |modes| ==> (s.ls[j], s.ms[j], s.ns[j]) == modes[j]
  {
    ExplicitOkKnown(t, modes, teuk, ylms, eps, selector);
    ExplicitIsRows(t, modes, teuk, ylms, eps, selector);
    RowsInCatalogue(t, modes);
    SelectRowsContents(t, Rows(t, modes), teuk, ylms);
  }

  /** A successful explicit selection takes, for the j-th triple, the amplitude
      column and first angular factor of its catalogue row and the second
      angular factor of that row's partner. */
  lemma SelectExplicitColumns<C, Y>(t: ModeTable, modes: seq<Mode>, teuk: seq<C>, ylms: seq<Y>, eps: real,
                                    selector: DefaultSelector<C, Y>)
    requires t.Valid() && |modes| > 0
    requires SelectModes(t, Explicit(modes), teuk, ylms, eps, selector).Ok?
    ensures forall j :: 0 <= j < |modes| ==> modes[j] in t.lmnIndices
    ensures var s := SelectModes(t, Explicit(modes), teuk, ylms, eps, selector).value;
      var rows := Rows(t, modes);
      var k := |modes|;
      && |s.amps| == k && |s.ylms| == 2 * k
      && forall j :: 0 <= j < k ==>
           && 0 <= rows[j] < |teuk| && s.amps[j] == teuk[rows[j]]
           && rows[j] < |ylms| && s.ylms[j] == ylms[rows[j]]
           && var p := SymmetryPartner(rows[j], t.numM0, t.numM1Up);
              0 <= p < |ylms| && s.ylms[k + j] == ylms[p]
  {
    ExplicitOkKnown(t, modes, teuk, ylms, eps, selector);
    ExplicitIsRows(t, modes, teuk, ylms, eps, selector);
    RowsInCatalogue(t, modes);
    SelectRowsContents(t, Rows(t, modes), teuk, ylms);
  }

  /** The lookup of a list whose triples are all present yields their rows. */
  lemma LookupRows(t: ModeTable, modes: seq<Mode>)
    requires forall j :: 0 <= j < |modes| ==> modes[j] in t.lmnIndices
    ensures LookupAll(t.lmnIndices, modes) == Ok(Rows(t, modes))
  {
    var r := LookupAll(t.lmnIndices, modes);
    assert r.Ok?;
    assert r.value == Rows(t, modes);
  }

  /** An explicit list with a triple outside the catalogue fails with KeyError
      for the first such triple, whatever the amplitudes and angular factors. */
  lemma SelectExplicitUnknownMode<C, Y>(t: ModeTable, modes: seq<Mode>, teuk: seq<C>, ylms: seq<Y>, eps: real,
                                        selector: DefaultSelector<C, Y>, j: nat)
    requires j < |modes| && modes[j] !in t.lmnIndices
    requires forall i :: 0 <= i < j ==> modes[i] in t.lmnIndices
    ensures SelectModes(t, Explicit(modes), teuk, ylms, eps, selector) == Err(KeyError(modes[j]))
  {
    var r := LookupAll(t.lmnIndices, modes);
    assert r.Err?;
    var j' :| 0 <= j' < |modes| && modes[j'] !in t.lmnIndices && r.error == KeyError(modes[j'])
              && forall i :: 0 <= i < j' ==> modes[i] in t.lmnIndices;
    assert j' == j;
  }
}

=== FILE: outcome.dfy ===
/** Errors the waveform call can raise, and a failure-compatible result type for them. */
module Outcome {

  /** The exception classes raised along the assembly pipeline. */
  datatype Error =
    | IndexError                   // numpy indexing out of range, or `t[-1]` on an empty trajectory
    | KeyError(mode: (int, int, int))  // an explicit (l, m, n) triple missing from `lmn_indices`
    | ValueError(message: string)  // a malformed `mode_selection`
    | GpuUnavailable               // `use_gpu` requested on a class without GPU capability
    | NotImplemented               // a class that does not declare `gpu_capability`

  /** Either a value or the error that stopped the computation. */
  datatype Result<+T> = Ok(value: T) | Err(error: Error) {

    predicate IsFailure() {
      Err?
    }

    function PropagateFailure<U>(): Result<U>
      requires Err?
    {
      Err(error)
    }

    function Extract(): T
      requires Ok?
    {
      value
    }
  }
}

=== FILE: waveform.dfy ===
/** The Schwarzschild eccentric waveform classes: their capability flags, the
    GPU sanity check run at construction, and the waveform call, which takes the
    last time of the trajectory as the plunge time, gathers the angular factors
    once, and runs the batch loop over the schedule with one mode selection and
    one summation per batch. */
module Waveform {
  import opened Outcome
  import opened Indexing
  import opened Batching
  import opened Modes

  /** A Python value as the identity tests `is True` / `is False` and plain
      truthiness see it: one of the two booleans, or any other object. */
  datatype PyValue = PyBool(b: bool) | PyObject(truthy: bool)
  {
    predicate Truthy() {
      match this
      case PyBool(b) => b
      case PyObject(t) => t
    }
  }

  /** A waveform class as its two flags: `gpu_capability` (a property that may
      raise) and `allow_batching`. */
  datatype WaveformClass = WaveformClass(gpuCapability: Result<PyValue>, allowBatching: PyValue)

  /** The base class, as the stacked `classmethod` and `property` decorators
      behave on Python 3.9 to 3.12: reading `gpu_capability` raises
      NotImplementedError, and `allow_batching` hands back the
      NotImplementedError class itself, an object that is truthy and not
      `False`. */
  const BaseClass := WaveformClass(Err(NotImplemented), PyObject(true))

  /** The fast flux model: runs on a GPU, does not batch. */
  const FastFlux := WaveformClass(Ok(PyBool(true)), PyBool(false))

  /** The slow flux model: CPU only, batches. */
  const SlowFlux := WaveformClass(Ok(PyBool(false)), PyBool(true))

  /** `self.allow_batching is False`: only the boolean `False` switches batching off. */
  predicate BatchingDisallowed(cls: WaveformClass) {
    cls.allowBatching == PyBool(false)
  }

  /** `sanity_check_gpu`: reading the capability may raise; a class whose
      capability is `False` refuses a `use_gpu` that is `True`. */
  function SanityCheckGpu(cls: WaveformClass, useGpu: PyValue): (r: Result<()>)
    ensures r.Err? <==> cls.gpuCapability.Err? || (cls.gpuCapability == Ok(PyBool(false)) && useGpu == PyBool(true))
    ensures r.Err? && cls.gpuCapability.Ok? ==> r.error == GpuUnavailable
    ensures cls.gpuCapability.Err? ==> r == Err(cls.gpuCapability.error)
  {
    var cap :- cls.gpuCapability;
    if cap == PyBool(false) && useGpu == PyBool(true) then Err(GpuUnavailable) else Ok(())
  }

  /** The array module: numpy, or cupy when it could be imported. */
  datatype Backend = Numpy | Cupy

  /** `if use_gpu: self.xp = xp`, where `xp` is cupy when its import succeeded
      and numpy otherwise. */
  function SelectBackend(useGpu: PyValue, cupyImported: bool): (b: Backend)
    ensures b == Cupy <==> useGpu.Truthy() && cupyImported
  {
    if useGpu.Truthy() && cupyImported then Cupy else Numpy
  }

  /** A constructed waveform model: its class, array module, the
      `normalize_amps` switch and the mode catalogue it inherits. */
  datatype Instance = Instance(cls: WaveformClass, backend: Backend, normalizeAmps: bool, table: ModeTable)

  /** Construction: the GPU sanity check comes first; then the array module is
      chosen and the normalisation switch recorded. */
  function Construct(cls: WaveformClass, useGpu: PyValue, normalizeAmps: bool, cupyImported: bool,
                     table: ModeTable): (r: Result<Instance>)
    ensures r.Ok? <==> SanityCheckGpu(cls, useGpu).Ok?
    ensures r.Err? ==> r.error == SanityCheckGpu(cls, useGpu).error
    ensures r.Ok? ==> && r.value.cls == cls && r.value.table == table
                      && r.value.normalizeAmps == normalizeAmps
                      && (r.value.backend == Cupy <==> useGpu.Truthy() && cupyImported)
  {
    var _ :- SanityCheckGpu(cls, useGpu);
    Ok(Instance(cls, SelectBackend(useGpu, cupyImported), normalizeAmps, table))
  }

  /** The fast flux model does not batch, and builds for any `use_gpu`. */
  lemma FastFluxFlags(useGpu: PyValue, normalizeAmps: bool, cupyImported: bool, table: ModeTable)
    ensures BatchingDisallowed(FastFlux)
    ensures Construct(FastFlux, useGpu, normalizeAmps, cupyImported, table).Ok?
  {
  }

  /** The slow flux model batches, and refuses to build exactly when `use_gpu`
      is the boolean `True`. */
  lemma SlowFluxFlags(useGpu: PyValue, normalizeAmps: bool, cupyImported: bool, table: ModeTable)
    ensures !BatchingDisallowed(SlowFlux)
    ensures Construct(SlowFlux, useGpu, normalizeAmps, cupyImported, table).Err? <==> useGpu == PyBool(true)
    ensures Construct(SlowFlux, useGpu, normalizeAmps, cupyImported, table).Err? ==>
              Construct(SlowFlux, useGpu, normalizeAmps, cupyImported, table).error == GpuUnavailable
  {
  }

  /** The base class counts as batching (its flag is not the boolean `False`),
      and never builds: reading its capability raises. */
  lemma BaseClassFlags(useGpu: PyValue, normalizeAmps: bool, cupyImported: bool, table: ModeTable)
    ensures !BatchingDisallowed(BaseClass)
    ensures Construct(BaseClass, useGpu, normalizeAmps, cupyImported, table) == Err(NotImplemented)
  {
  }

  /** The check is an identity test: a truthy `use_gpu` that is not the boolean
      `True` (the integer 1, say) passes it on the CPU-only model, and the GPU
      array module is then chosen when cupy is importable. */
  lemma TruthyGpuRequestPassesCheck(normalizeAmps: bool, table: ModeTable)
    ensures var r := Construct(SlowFlux, PyObject(true), normalizeAmps, true, table);
      r.Ok? && r.value.backend == Cupy
  {
  }

  /** What the call needs from the modules outside this model, as functions of
      the chunk being processed: the amplitude columns of the chunk, the flux
      normalisation, the angular-factor values before the `inverse_lm` gather,
      the default mode filter, and the per-chunk mode summation. */
  datatype Collaborators<!C, !Y, S> = Collaborators(
    amplitudes: Range -> seq<C>,
    normalize: (Range, seq<C>) -> seq<C>,
    ylmValues: seq<Y>,
    selector: DefaultSelector<C, Y>,
    summation: (Range, Selected<C, Y>) -> seq<S>)

  /** The amplitude columns one chunk hands to mode selection. */
  function ChunkAmplitudes<C, Y, S>(inst: Instance, env: Collaborators<C, Y, S>, r: Range): seq<C> {
    var raw := env.amplitudes(r);
    if inst.normalizeAmps then env.normalize(r, raw) else raw
  }

  /** One pass of the batch loop: amplitudes (normalised when asked), mode
      selection, then the summation of the chunk; the selection is the
      bookkeeping the pass leaves behind. */
  function BatchStage<C, Y, S>(inst: Instance, env: Collaborators<C, Y, S>, ylms: seq<Y>, eps: real,
                               sel: Selection, r: Range): Result<Batch<S, Selected<C, Y>>>
  {
    var chosen :- SelectModes(inst.table, sel, ChunkAmplitudes(inst, env, r), ylms, eps, env.selector);
    Ok(Batch(env.summation(r, chosen), chosen))
  }

  /** The loop body as the stage the batch loop runs on each chunk. */
  function Stage<C, Y, S>(inst: Instance, env: Collaborators<C, Y, S>, ylms: seq<Y>, eps: real,
                          sel: Selection): Range -> Result<Batch<S, Selected<C, Y>>> {
    r => BatchStage(inst, env, ylms, eps, sel, r)
  }

  /** What a call leaves behind: the waveform, `plunge_time`, `num_modes_kept`
      and the `ls`, `ms`, `ns` of the last batch. */
  datatype Output<S> = Output(waveform: seq<S>, plungeTime: real, numModesKept: nat,
                              ls: seq<int>, ms: seq<int>, ns: seq<int>)

  /** The angular factors in catalogue order: `ylm_gen(...)[inverse_lm]`. */
  function CatalogueYlms<C, Y, S>(inst: Instance, env: Collaborators<C, Y, S>): (r: Result<seq<Y>>)
    ensures r.Ok? <==> forall j :: 0 <= j < |inst.table.inverseLm| ==> InBounds(|env.ylmValues|, inst.table.inverseLm[j])
    ensures r.Err? ==> r.error == IndexError
    ensures r.Ok? ==> |r.value| == |inst.table.inverseLm|
  {
    Gather(env.ylmValues, inst.table.inverseLm)
  }

  /** The inputs on which the call returns: the call raises before the split
      loop when the trajectory is empty or the `inverse_lm` gather fails, and
      otherwise returns exactly when the split loop does. */
  predicate CallReturns<C, Y, S>(inst: Instance, t: seq<real>, env: Collaborators<C, Y, S>, batchSize: int) {
    |t| == 0 || CatalogueYlms(inst, env).Err? || Terminates(|t|, batchSize, BatchingDisallowed(inst.cls))
  }

  /** The waveform call, given the trajectory times `t`. It is defined on the
      inputs `CallReturns` admits; on every other input the source reaches the
      split loop and never returns normally: the split list grows until memory
      runs out (`CallDivergesInSplitLoop`). */
  function Call<C, Y, S>(inst: Instance, t: seq<real>, env: Collaborators<C, Y, S>, eps: real,
                         batchSize: int, sel: Selection): (r: Result<Output<S>>)
    requires CallReturns(inst, t, env, batchSize)
    ensures |t| == 0 ==> r == Err(IndexError)
    ensures r.Ok? ==> |t| > 0 && r.value.plungeTime == t[|t| - 1] && CatalogueYlms(inst, env).Ok?
  {
    if |t| == 0 then Err(IndexError)
    else
      var plunge := t[|t| - 1];
      var ylms :- CatalogueYlms(inst, env);
      var chunks := Schedule(|t|, batchSize, BatchingDisallowed(inst.cls));
      var a :- Assemble(chunks, Stage(inst, env, ylms, eps, sel));
      Ok(Output(a.waveform, plunge, |a.last.amps|, a.last.ls, a.last.ms, a.last.ns))
  }

  /** The failures raised before any batch runs: an empty trajectory has no
      last time, and the angular-factor gather may be out of range. */
  lemma CallEarlyErrors<C, Y, S>(inst: Instance, t: seq<real>, env: Collaborators<C, Y, S>, eps: real,
                                 batchSize: int, sel: Selection)
    ensures |t| == 0 ==> Call(inst, t, env, eps, batchSize, sel) == Err(IndexError)
    ensures CatalogueYlms(inst, env).Err? ==> Call(inst, t, env, eps, batchSize, sel) == Err(IndexError)
  {
  }

  /** The inputs the call is not defined on are exactly those that get past
      the two early errors and then never leave the split loop: batching is
      on, the batch size is 0 or below (other than -1), and after every pass
      the counter and its next value stay below `len(t)`. */
  lemma CallDivergesInSplitLoop<C, Y, S>(inst: Instance, t: seq<real>, env: Collaborators<C, Y, S>, batchSize: int)
    requires !CallReturns(inst, t, env, batchSize)
    ensures |t| > 0 && CatalogueYlms(inst, env).Ok?
    ensures Batched(batchSize, BatchingDisallowed(inst.cls)) && batchSize <= 0
    ensures forall k: nat :: Counter(k, batchSize) < |t| && Counter(k, batchSize) + batchSize < |t|
  {
    forall k: nat
      ensures Counter(k, batchSize) < |t| && Counter(k, batchSize) + batchSize < |t|
    {
      NonPositiveBatchSizeNeverExits(|t|, batchSize, k);
    }
  }

  /** A call with a trajectory and the angular factors in hand succeeds exactly
      when every batch does. The waveform is then the batch segments joined in
      chunk order, the plunge time is the last trajectory time, and
      `num_modes_kept`, `ls`, `ms`, `ns` are those of the last batch only. */
  lemma CallAssemblesBatches<C, Y, S>(inst: Instance, t: seq<real>, env: Collaborators<C, Y, S>, eps: real,
                                      batchSize: int, sel: Selection)
    requires Terminates(|t|, batchSize, BatchingDisallowed(inst.cls))
    requires |t| > 0 && CatalogueYlms(inst, env).Ok?
    ensures var r := Call(inst, t, env, eps, batchSize, sel);
      var chunks := Schedule(|t|, batchSize, BatchingDisallowed(inst.cls));
      var stage := Stage(inst, env, CatalogueYlms(inst, env).value, eps, sel);
      && (r.Ok? <==> forall j :: 0 <= j < |chunks| ==> stage(chunks[j]).Ok?)
      && (r.Ok? ==>
            var last := stage(chunks[|chunks| - 1]).value.info;
            && r.value.waveform == Flatten(Segments(chunks, stage))
            && r.value.plungeTime == t[|t| - 1]
            && r.value.numModesKept == |last.amps|
            && r.value.ls == last.ls && r.value.ms == last.ms && r.value.ns == last.ns)
  {
    var chunks := Schedule(|t|, batchSize, BatchingDisallowed(inst.cls));
    var stage := Stage(inst, env, CatalogueYlms(inst, env).value, eps, sel);
    AssembleJoinsSegments(chunks, stage);
  }

  /** A call whose every batch fails with the same error fails with that error. */
  lemma CallUniformError<C, Y, S>(inst: Instance, t: seq<real>, env: Collaborators<C, Y, S>, eps: real,
                                  batchSize: int, sel: Selection, e: Error)
    requires Terminates(|t|, batchSize, BatchingDisallowed(inst.cls))
    requires |t| > 0 && CatalogueYlms(inst, env).Ok?
    requires forall r: Range :: Stage(inst, env, CatalogueYlms(inst, env).value, eps, sel)(r) == Err(e)
    ensures Call(inst, t, env, eps, batchSize, sel) == Err(e)
  {
    var chunks := Schedule(|t|, batchSize, BatchingDisallowed(inst.cls));
    var stage := Stage(inst, env, CatalogueYlms(inst, env).value, eps, sel);
    AssembleJoinsSegments(chunks, stage);
    assert !stage(chunks[0]).Ok?;
    AssembleFirstError(chunks, stage);
  }

  /** A string other than "all" and an empty list are rejected with ValueError
      in the first batch, so the call fails with ValueError. */
  lemma CallRejectsInvalidSelection<C, Y, S>(inst: Instance, t: seq<real>, env: Collaborators<C, Y, S>, eps: real,
                                             batchSize: int, sel: Selection)
    requires Terminates(|t|, batchSize, BatchingDisallowed(inst.cls))
    requires |t| > 0 && CatalogueYlms(inst, env).Ok?
    requires (sel.Named? && sel.name != "all") || sel == Explicit([])
    ensures Call(inst, t, env, eps, batchSize, sel).Err?
    ensures Call(inst, t, env, eps, batchSize, sel).error
         == if sel.Named? then ValueError("If mode selection is a string, must be `all`.")
            else ValueError("If mode selection is a list, cannot be empty.")
  {
    var e := if sel.Named? then ValueError("If mode selection is a string, must be `all`.")
             else ValueError("If mode selection is a list, cannot be empty.");
    CallUniformError(inst, t, env, eps, batchSize, sel, e);
  }

  /** An explicit list whose j-th triple is the first one outside the catalogue
      makes the call fail with KeyError for that triple. */
  lemma CallRejectsUnknownMode<C, Y, S>(inst: Instance, t: seq<real>, env: Collaborators<C, Y, S>, eps: real,
                                        batchSize: int, modes: seq<Mode>, j: nat)
    requires Terminates(|t|, batchSize, BatchingDisallowed(inst.cls))
    requires |t| > 0 && CatalogueYlms(inst, env).Ok?
    requires j < |modes| && modes[j] !in inst.table.lmnIndices
    requires forall i :: 0 <= i < j ==> modes[i] in inst.table.lmnIndices
    ensures Call(inst, t, env, eps, batchSize, Explicit(modes)) == Err(KeyError(modes[j]))
  {
    var ylms := CatalogueYlms(inst, env).value;
    forall r: Range
      ensures Stage(inst, env, ylms, eps, Explicit(modes))(r) == Err(KeyError(modes[j]))
    {
      SelectExplicitUnknownMode(inst.table, modes, ChunkAmplitudes(inst, env, r), ylms, eps, env.selector, j);
    }
    CallUniformError(inst, t, env, eps, batchSize, Explicit(modes), KeyError(modes[j]));
  }

  /** On the default-filter path the call itself raises nothing after the
      angular-factor gather (the external modules are modelled as total), so
      it succeeds and keeps the number of modes the filter kept on the last
      chunk. */
  lemma CallDefaultSucceeds<C, Y, S>(inst: Instance, t: seq<real>, env: Collaborators<C, Y, S>, eps: real,
                                     batchSize: int)
    requires Terminates(|t|, batchSize, BatchingDisallowed(inst.cls))
    requires |t| > 0 && CatalogueYlms(inst, env).Ok?
    ensures var r := Call(inst, t, env, eps, batchSize, Default);
      var chunks := Schedule(|t|, batchSize, BatchingDisallowed(inst.cls));
      var lastTeuk := ChunkAmplitudes(inst, env, chunks[|chunks| - 1]);
      var s := env.selector(lastTeuk, CatalogueYlms(inst, env).value, inst.table.lArr, inst.table.mArr,
                            inst.table.nArr, eps);
      r.Ok? && r.value.numModesKept == |s.amps| && r.value.ms == s.ms && r.value.ns == s.ns
  {
    var chunks := Schedule(|t|, batchSize, BatchingDisallowed(inst.cls));
    var stage := Stage(inst, env, CatalogueYlms(inst, env).value, eps, Default);
    CallAssemblesBatches(inst, t, env, eps, batchSize, Default);
    assert forall j :: 0 <= j < |chunks| ==> stage(chunks[j]).Ok?;
  }

  /** A successful call with an explicit list keeps exactly the listed modes,
      in the caller's order: every batch selects the same triples whatever its
      chunk, so the bookkeeping of the last batch is that of every batch. */
  lemma CallExplicitKeepsListedModes<C, Y, S>(inst: Instance, t: seq<real>, env: Collaborators<C, Y, S>, eps: real,
                                              batchSize: int, modes: seq<Mode>)
    requires CallReturns(inst, t, env, batchSize)
    requires inst.table.Valid() && |modes| > 0
    ensures var r := Call(inst, t, env, eps, batchSize, Explicit(modes));
      r.Ok? ==>
        && r.value.numModesKept == |modes|
        && |r.value.ls| == |r.value.ms| == |r.value.ns| == |modes|
        && forall j :: 0 <= j < |modes| ==> (r.value.ls[j], r.value.ms[j], r.value.ns[j]) == modes[j]
  {
    if Call(inst, t, env, eps, batchSize, Explicit(modes)).Ok? {
      var ylms := CatalogueYlms(inst, env).value;
      var chunks := Schedule(|t|, batchSize, BatchingDisallowed(inst.cls));
      var stage := Stage(inst, env, ylms, eps, Explicit(modes));
      CallAssemblesBatches(inst, t, env, eps, batchSize, Explicit(modes));
      var last := chunks[|chunks| - 1];
      assert stage(last).Ok?;
      var teuk := ChunkAmplitudes(inst, env, last);
      assert SelectModes(inst.table, Explicit(modes), teuk, ylms, eps, env.selector).Ok?;
      SelectExplicitRows(inst.table, modes, teuk, ylms, eps, env.selector);
    }
  }

  /** On a class that does not batch, the batch size is ignored: every batch
      size gives the single-batch call. */
  lemma UnbatchedClassIgnoresBatchSize<C, Y, S>(inst: Instance, t: seq<real>, env: Collaborators<C, Y, S>,
                                                eps: real, batchSize: int, sel: Selection)
    requires BatchingDisallowed(inst.cls)
    ensures Terminates(|t|, batchSize, BatchingDisallowed(inst.cls))
    ensures Call(inst, t, env, eps, batchSize, sel) == Call(inst, t, env, eps, -1, sel)
  {
    ScheduleSingleBatch(|t|, batchSize, true);
    ScheduleSingleBatch(|t|, -1, true);
  }

  /** Batch invariance of the call: when every chunk's selection succeeds and
      the summation of a chunk yields the samples of one signal `g` over that
      chunk, the waveform is those samples over the whole trajectory, whatever
      the batch size. */
  lemma CallBatchInvariance<C, Y, S>(inst: Instance, t: seq<real>, env: Collaborators<C, Y, S>, eps: real,
                                     batchSize: int, sel: Selection, g: nat -> S)
    requires Terminates(|t|, batchSize, BatchingDisallowed(inst.cls))
    requires |t| > 0 && CatalogueYlms(inst, env).Ok?
    requires forall r: Range :: r.Valid() ==>
      var b := BatchStage(inst, env, CatalogueYlms(inst, env).value, eps, sel, r);
      b.Ok? && b.value.segment == Samples(g, r)
    ensures Call(inst, t, env, eps, batchSize, sel).Ok?
    ensures Call(inst, t, env, eps, -1, sel).Ok?
    ensures Call(inst, t, env, eps, batchSize, sel).value.waveform
         == Call(inst, t, env, eps, -1, sel).value.waveform
         == Samples(g, Range(0, |t|))
  {
    var stage := Stage(inst, env, CatalogueYlms(inst, env).value, eps, sel);
    var dis := BatchingDisallowed(inst.cls);
    BatchInvariance(|t|, batchSize, dis, stage, g);
    ScheduleSingleBatch(|t|, -1, dis);
  }
}
